=== FILE: README.md ===
# uv-helper core in Dafny

uv-helper installs Python scripts from Git repositories as commands. It clones
the repository, rewrites each script's shebang to `uv run --script`, makes it
executable, links it into a bin directory and records it in a state store. It
can later update, list and remove the recorded scripts.

This project models the parts that decide what happens to that state:

- The migration runner of the state database: the schema version kept in
  document 1 of the `metadata` table, the ordered registry of migrations, and
  the run loop that applies the pending ones and stops at the first failure.
- The script transforms of the installer: the shebang rewrite, the execute
  bits, the `uv add --script` command, the symlink location, the
  `install_script` pipeline and the removal of an installation.
- The configuration record: its defaults, its validation, its TOML layout
  (save and load), and where it is loaded from.
- The record changes made by the `install`, `update`, `update-all` and
  `remove` commands, and the source column of `list`.
- The `<repository>[@tag | #branch]` URL parse, as far as the repository's
  tests pin it down.

Git, the filesystem, the confirmation prompt, the clock and `uv` itself are
not executed. What the program reads back from them is an input:

- a function from a `clone_or_update` request to what git reports;
- a function from an `install_script` request to its outcome;
- the set of files present in the clone;
- the lines and mode bits of the script file;
- the error raised by a filesystem removal;
- a timestamp.

Modules follow the source files:

| module | file |
|---|---|
| `Wrappers`, `Text`, `Paths` | `Option`/`Result`, Python's `str.split`, pathlib's `/` (an absolute right side replaces the left, an empty one leaves it) and `.name` |
| `MigrationBase`, `MigrationRunner`, `MigrationRegistry` | `migrations/base.py`, `runner.py`, `__init__.py` |
| `Configuration` | `config.py` |
| `ScriptState` | the record operations of the state store |
| `ScriptInstaller` | `script_installer.py` |
| `Cli` | `cli.py` |
| `GitUrl` | the contract of `parse_git_url` |

## Model

| member | source | states |
|---|---|---|
| GitUrl.Parse | tests/test_git_manager.py:9-47 | The result is well formed: there is a value exactly when the kind is not default. The kind is branch exactly when the URL has a '#', and tag exactly when there is no '#' and the text after the last '@' has no '/' or ':'. The value is the text after that marker. The base is the text before it, with one trailing ".git" removed. |
| GitUrl.ParseWithoutRef | tests/test_git_manager.py:9-15 | A URL with no '#' and no '@' parses to the default ref of itself, without a trailing ".git". |
| GitUrl.ParseTag | tests/test_git_manager.py:41-47 | `<base>@<tag>` parses to that tag of `<base>` with ".git" removed, for any base without '#' and any tag free of '#', '@', '/' and ':'. |
| GitUrl.ParseBranch | tests/test_git_manager.py:25-31 | `<base>#<branch>` parses to that branch of `<base>` with ".git" removed, for every base and every branch without '#'. |
| GitUrl.TestUrlWithoutRef | tests/test_git_manager.py:9-15 | `https://github.com/user/repo` gives base `https://github.com/user/repo`, kind default and no value. |
| GitUrl.TestUrlWithTag | tests/test_git_manager.py:17-23 | `…/repo@v1.0.0` gives base `…/repo`, kind tag and value `v1.0.0`. |
| GitUrl.TestUrlWithBranch | tests/test_git_manager.py:25-31 | `…/repo#dev` gives base `…/repo`, kind branch and value `dev`. |
| GitUrl.TestUrlWithGitExtension | tests/test_git_manager.py:33-39 | `…/repo.git` gives base `…/repo`, kind default and no value. |
| GitUrl.TestUrlWithGitExtensionAndTag | tests/test_git_manager.py:41-47 | `…/repo.git@v1.0.0` gives base `…/repo`, kind tag and value `v1.0.0`. |
| MigrationRunner.GetSchemaVersion | src/uv_helper/migrations/runner.py:27-37 | The version is the `schema_version` field of document 1 when that field exists. It is 0 when document 1 is missing, empty or lacks the field. |
| MigrationRunner.SetSchemaVersionAsWritten | src/uv_helper/migrations/runner.py:39-50 | The code as written leaves the script documents alone. The version reads back only when document 1 is present and non-empty, or when the table is empty. |
| MigrationRunner.AsWrittenLosesVersion | src/uv_helper/migrations/runner.py:47-50 | For any metadata table that is non-empty, whose ids start at 1, and whose document 1 is missing or empty, a version written as the code does reads back as 0. |
| MigrationRunner.AsWrittenLosesVersionOnEmptyDoc | src/uv_helper/migrations/runner.py:47-50 | With an empty document 1, writing version 2 as the code does still reads back as 0. |
| MigrationRunner.AsWrittenLosesVersionWithoutDocOne | src/uv_helper/migrations/runner.py:47-50 | With no document 1 but another metadata document present, writing version 2 as the code does still reads back as 0. |
| MigrationRunner.SetSchemaVersion | src/uv_helper/migrations/runner.py:39-50 | Corrected version: the written version always reads back. Other metadata documents, other fields of document 1 and the script documents are unchanged. The only id that may be added is 1. |
| MigrationRunner.AsWrittenAgreesInTheUsualCases | src/uv_helper/migrations/runner.py:46-50 | When document 1 is present and non-empty, or the table is empty, the code as written and the corrected version give the same database. |
| MigrationRunner.PendingVersions | src/uv_helper/migrations/runner.py:80-81 | Every version the loop tries is above the starting version and belongs to a registered migration. |
| MigrationRunner.PendingComplete | src/uv_helper/migrations/runner.py:80-81 | Every registered migration above the starting version is among the versions the loop tries. |
| MigrationRunner.PendingAscending | src/uv_helper/migrations/runner.py:80-81 | For a strictly ascending registry, the versions the loop tries are strictly ascending, so they are tried in registry order without repeats. |
| MigrationRunner.ApplyPending | src/uv_helper/migrations/runner.py:79-94 | Without a failure, exactly the pending versions are applied, in order. With a failure, the applied versions followed by the failed one are a prefix of the pending versions. When nothing is applied the database is unchanged. Otherwise the stored version is the last one applied. |
| MigrationRunner.FailureIsRaised | src/uv_helper/migrations/runner.py:86-94 | A reported failure names a registered migration, with its description, whose body raised exactly that error on the database the applied migrations left. |
| MigrationRunner.NoFailureWithoutRaise | src/uv_helper/migrations/runner.py:86-94 | When no body can raise, the loop reports no failure. |
| MigrationRunner.LastAppliedIsStored | src/uv_helper/migrations/runner.py:84-87 | After at least one migration, the database is what the body of the last applied migration produced on some database, with its version then recorded. |
| MigrationRunner.FirstPendingRaises | src/uv_helper/migrations/runner.py:79-94 | When the first pending migration raises on the database it receives, the loop stops there: nothing is applied, the database is untouched, and that exact error is re-raised with the migration's version and description. |
| MigrationRunner.ApplyPendingConcat | src/uv_helper/migrations/runner.py:79-94 | The loop over two lists joined is the loop over the first, continued over the second on the database it left, unless the first stopped at a failure. |
| MigrationRunner.ApplyPendingSplit | src/uv_helper/migrations/runner.py:79-94 | For the loop over two lists joined: if the first part fails, the whole run is the first part's run. Otherwise the whole run has the second part's database and failure, and the applied versions of both parts in order. |
| MigrationRunner.RaiseAfterPrefixStops | src/uv_helper/migrations/runner.py:79-94 | The first pending migration to raise stops the run. When the migrations before it ran without a failure and it raises on the database they left, the run reports exactly their versions as applied and keeps their database. It re-raises that error with that migration's version and description. |
| MigrationRunner.RaisingBodyFails | src/uv_helper/migrations/runner.py:79-94 | In an ascending list, a pending migration whose body always raises makes the loop report a failure, at that migration's version or an earlier one. |
| MigrationRunner.RaisingBodyStopsRun | src/uv_helper/migrations/runner.py:79-94 | In an ascending list, a pending migration whose body always raises is never applied. The loop reports a failure at its version or earlier, and every applied version is below it. |
| MigrationRunner.RunMigrations | src/uv_helper/migrations/runner.py:62-96 | At or above the target version a run is a no-op. Below it, the run behaves as ApplyPending from the stored version. A reported failure names a registered migration whose body raised that error. When no body can fail, no failure is reported. |
| MigrationRunner.RunRaiseAfterPrefixStops | src/uv_helper/migrations/runner.py:62-94 | Below the target version, the first migration above the stored version that raises on the database the earlier ones left ends the run with exactly that error, after exactly the earlier applied versions. |
| MigrationRunner.RunMigrationsSplit | src/uv_helper/migrations/runner.py:62-94 | Below the target version, a run over two lists joined is the run over the first, then, unless that failed, the loop over the second from the same stored version. |
| MigrationRunner.RunRaisingBodyStops | src/uv_helper/migrations/runner.py:62-94 | Below the target version, a migration above the stored version whose body always raises is reported as a failure (at its version or earlier) and is not applied, and neither is anything after it. |
| MigrationRunner.VersionNeverDecreases | src/uv_helper/migrations/runner.py:62-96 | After a run the stored version is at least what it was before. |
| MigrationRunner.RerunIsNoOp | src/uv_helper/migrations/runner.py:69-81 | For a strictly ascending registry, a successful run followed by a second run applies nothing the second time and leaves the database as it was. |
| MigrationRunner.ResumeAfterFailure | src/uv_helper/migrations/runner.py:79-94 | For an ascending registry whose versions do not exceed the target, a failed run leaves the stored version below the target. The next run starts with the version that failed and retries none of those that succeeded. If it succeeds it applies exactly the rest of the pending versions. If it fails, what it applied plus the failed version is a prefix of that rest. |
| MigrationRegistry.Registry | src/uv_helper/migrations/__init__.py:9-12 | The registry has one migration per schema version. Its versions are [1, 2], strictly ascending, none above the target version, and the last one is the target version. |
| MigrationRegistry.FreshStoreAppliesBoth | src/uv_helper/migrations/__init__.py:9-12 | When the bodies never fail, a store with no version gets 1 then 2 applied. It ends at the target version and needs no further migration. |
| MigrationRegistry.VersionOneAppliesOnlySecond | src/uv_helper/migrations/__init__.py:9-12 | A store at version 1 gets only migration 2 applied and ends at version 2. |
| MigrationRegistry.NeedsMigrationIffWorkPending | src/uv_helper/migrations/runner.py:52-60 | `needs_migration` holds exactly when a run over the registry applies or attempts a migration. When it does not hold, a run is a no-op. |
| Configuration.NewConfig | src/uv_helper/config.py:25-40 | Construction succeeds exactly when the clone depth is at least 1, and otherwise reports that depth. Path fields given as text are expanded; paths are taken as is. Every other field is kept. |
| Configuration.DefaultConfig | src/uv_helper/config.py:91-102 | The default configuration is valid. It uses the three default locations, and its remaining fields equal the defaults of the field declarations. |
| Configuration.Flatten | src/uv_helper/config.py:127-137 | The flattened map has exactly the eight field keys. Each one is taken from its section of the file when present, else from its default. |
| Configuration.Validate | src/uv_helper/config.py:139 | Validation succeeds exactly when every field has its type (text paths, an integer depth, boolean flags) and the depth is at least 1. A wrong type is reported as such. A too-small depth is reported with its value. On success, each path is the expansion of its text and every other field is the value in the map. |
| Configuration.Save | src/uv_helper/config.py:42-70 | The saved document has exactly the sections paths, git and install, each with exactly its keys. Every field of the layout is present. |
| Configuration.SaveLoadRoundTrip | src/uv_helper/config.py:52-137 | Loading a saved valid configuration gives back every field. The saved path text is expanded once more. |
| Configuration.EmptyFileGivesDefaults | src/uv_helper/config.py:128-137 | A file without any section loads as the default configuration. |
| Configuration.ShallowerThanOneRejected | src/uv_helper/config.py:28 | A file whose clone depth is below 1 fails to load. |
| Configuration.GetConfigPath | src/uv_helper/config.py:73-88 | A set, non-empty `UV_HELPER_CONFIG` gives its expansion. An unset or empty one gives the expansion of the default location. |
| Configuration.LoadConfig | src/uv_helper/config.py:105-152 | The file is the explicit path, else the one from the environment variable or the default location. A missing file gives the default configuration and writes it there. An existing file gives exactly what validating its contents gives. The result is always valid. |
| Configuration.ExplicitPathBypassesVariable | src/uv_helper/config.py:119-120 | With an explicit path, the environment variable does not affect the result. |
| ScriptState.AddScript | src/uv_helper/cli.py:247 | The record is inserted or replaced under its name, and every other record is kept. Records stay keyed by their names. |
| ScriptState.RemoveScript | src/uv_helper/script_installer.py:226 | Exactly the named record is removed, and the others are kept. |
| ScriptState.ScriptsFromRepo | src/uv_helper/script_installer.py:216-219 | The result is exactly the names of the records whose clone directory is the given one. For a record using that directory, the result has one element exactly when no other record uses it. |
| ScriptInstaller.ModifyShebang | src/uv_helper/script_installer.py:57-96 | An empty file is an error. Otherwise the first line becomes the uv shebang. An existing `#!` line is replaced, else the uv line is prepended. All other lines are kept in order. |
| ScriptInstaller.ModifyShebangIdempotent | src/uv_helper/script_installer.py:83-88 | Rewriting an already rewritten script changes nothing. |
| ScriptInstaller.MakeExecutable | src/uv_helper/script_installer.py:140-159 | The three execute bits are set and every other mode bit is kept. |
| ScriptInstaller.MakeExecutableIdempotent | src/uv_helper/script_installer.py:156 | Setting the bits twice is the same as once, and a mode that has them already is unchanged. |
| ScriptInstaller.DependencyCommand | src/uv_helper/script_installer.py:29-54 | There is no command exactly when there are no dependencies. Otherwise the command is `uv add --script <path>` followed by the dependencies in order. |
| ScriptInstaller.SymlinkPath | src/uv_helper/script_installer.py:99-137 | The link is `target_dir / name`, with the script file's name when no name is given. A non-empty relative custom name lies in the target directory: the part after the directory is that name. A file name without '/' lies directly in the directory and names the link. An absolute custom name is the link itself. An empty name gives the directory. |
| ScriptInstaller.InstallScript | src/uv_helper/script_installer.py:250-309 | The steps fail in source order, each with its own error: not a script, `uv add` failed, the file could not be read, the file is empty, the file could not be written, chmod failed (only with chmod on), the link failed (only with symlink on). Success comes exactly when no step failed. The shebang step works on the lines left by `uv add` when there are dependencies. On success those lines are rewritten, the mode gets the execute bits only with chmod on, and a link exists only with symlink on. The issued commands are the dependency add and the `--help` check, each only when applicable. |
| ScriptInstaller.VerificationNeverFails | src/uv_helper/script_installer.py:303-307 | A failing `--help` run never changes the installation's result. |
| ScriptInstaller.InstalledLinkKeepsScriptName | src/uv_helper/script_installer.py:299-301 | With symlinking on, an installed script has a link. When the script file has a name, the link has that name. |
| ScriptInstaller.RemoveScriptInstallation | src/uv_helper/script_installer.py:186-230 | An unknown name is an error, and so is a filesystem error. Success comes exactly when neither occurs. On success the record is removed and its recorded symlink is unlinked. The clone directory is deleted exactly when cleaning was requested and no other record shares it. |
| Cli.RequestedRefIgnoresDefaultBranch | src/uv_helper/cli.py:187 | For a URL with a non-empty tag or branch, the recorded ref is that value, whatever the default-branch lookup reports. |
| Cli.MissingOrEmptyRefFallsBackToDefault | src/uv_helper/cli.py:187 | For a URL with no ref, or with an empty one, the recorded ref is the repository's default branch, or its error. |
| Cli.Attempt | src/uv_helper/cli.py:207-253 | A script is "not found" exactly when its file is absent from the clone. Otherwise the outcome is exactly the installer's result for that script. |
| Cli.InstallEach | src/uv_helper/cli.py:205-253 | There is one result per requested script, in order. Each result is that script's own outcome, so a missing or failed script does not stop the others. The stored names are the old ones plus those installed. Each installed script's record is replaced by the new record, and every other record is kept. |
| Cli.Finish | src/uv_helper/cli.py:205-253 | Each result is the requested script's own attempt, in order, with "not found" exactly for absent files. The stored names are the old ones plus exactly those reported placed. Each placed script gets the batch's record with its link. Every record not reported placed is kept. |
| Cli.InstallRunsTheBatch | src/uv_helper/cli.py:187-253 | A finished install's outcome for each script is that script's attempt in the batch built from the command, the configuration and git (the helper InstallBatch). A placed or failed script reports exactly what the installer returned for the request with the chosen install directory and flags. Only scripts reported placed are added or replaced; every other record is kept. |
| Cli.Install | src/uv_helper/cli.py:131-256 | An invalid URL and a declined overwrite leave the records unchanged, and so do git and dependency errors. An invalid URL means exactly that the URL check failed. A cancellation means exactly that a requested script is recorded, there is no `--force` and the user declined. A git error means exactly that the install proceeds and the sync, the commit read or the ref lookup failed; a sync error is reported with its message. A dependency error means exactly that git succeeded and dependency resolution failed. The install finishes exactly when none of these happened. A finished install has one result per script, "not found" exactly for absent files, and loses no record. Each installed record has the parsed base URL, the clone path, the link made, the commit read back, the recorded ref, the dependencies and the current time. Records of scripts not requested are kept. |
| Cli.UpdateOne | src/uv_helper/cli.py:407-468 | A git error means exactly that the sync or the commit read failed. Git and installer errors leave the records unchanged. "Up to date" comes exactly when git succeeds, the commit is unchanged and there is no `--force`; then only the ref is refreshed, and only if it changed. Otherwise git succeeded and the script is reinstalled: "updated" exactly when the installer succeeds, an installer error exactly when it fails. "Updated" keeps name, source, clone and dependencies. It records the new commit, the default branch (the old ref if that lookup fails), the time and the installer's link. Only the updated name may be added. Other records are kept, and records stay keyed by their names. |
| Cli.Update | src/uv_helper/cli.py:399-468 | An unknown name reports "not installed" and changes nothing. A known one behaves as a single update of its record. In keyed records, the set of names is unchanged and every other record is kept. |
| Cli.UpdateRecordsDefaultBranch | src/uv_helper/cli.py:429-457 | When the default-branch lookup succeeds, an update that ends "up to date" or "updated" stores that branch as the ref, whatever ref was recorded before (a tag included). |
| Cli.UpdateAll | src/uv_helper/cli.py:495-552 | There is one result per listed script, in order. Each status is what updating that script alone would report, so an error does not stop the rest. No names are lost. When every listed name is recorded, none are added. Records stay keyed by their names. |
| Cli.UpdateAllKeepsUnlisted | src/uv_helper/cli.py:504-552 | A record that no listed entry names is left as it was. |
| Cli.UpdateAllWritesEach | src/uv_helper/cli.py:504-552 | When the listing is a snapshot of the records with distinct names, each listed record ends exactly as updating it alone would leave it: new commit, ref, time and link after a reinstall, a refreshed ref when up to date, unchanged after an error. |
| Cli.Remove | src/uv_helper/cli.py:345-371 | An unknown name and a declined prompt change nothing. A declined prompt means exactly that the name is known, there is no `--force` and the user said no. The removal succeeds exactly when the name is known, the removal is confirmed or forced, and the filesystem raised no error; it fails exactly when that error occurred. A removal drops exactly that record. It deletes the clone exactly when cleaning was requested and no other record uses it. |
| Cli.SharedCloneSurvivesRemoval | src/uv_helper/cli.py:365-367 | Removing one of two scripts that share a clone never deletes the clone, even with `--clean-repo`. |
| Cli.SourceColumnOwnerRepo | src/uv_helper/cli.py:608 | For `<prefix>/<owner>/<repo>` the list shows `<owner>/<repo>`. |
| Cli.SourceColumnWithoutSlash | src/uv_helper/cli.py:608 | A source URL without '/' is shown as itself twice, joined by '/'. |

## Left out

- `git_manager.py`, `state.py`, `utils.py`, `deps.py` and the two migration bodies are not part of this model. Their results are inputs:
  - `is_git_url`, `get_repo_name_from_url` and `resolve_dependencies` are fields of the install environment;
  - `clone_or_update`, `get_current_commit_hash` and `get_default_branch` are one function from the request to what git reports;
  - `validate_python_script` and the outcome of `uv add` are fields of the tool outcomes;
  - the migration bodies and their descriptions are parameters of the registry.
- GitUrl.Parse: only the five tested URLs are claims about the program. The general rule (last '#', else a tag-like last '@', then strip ".git") is one rule consistent with them, since the parser's source is not part of this model. SSH URL handling and commit-hash detection are not modelled.
- The `GitRef` construction tests (tests/test_git_manager.py:50-73) hold by construction of the datatype and have no member.
- Filesystem existence checks before unlinking and `rmtree` are not modelled. The removal reports the recorded symlink and the clone path as removed. An `OSError` part-way through a removal is a single error input, and the partial effect on disk is not modelled.
- ScriptInstaller.SymlinkPath: the link lies inside the target directory only for a non-empty relative name. pathlib's `/` makes an absolute custom name the link itself and an empty one the directory, and the model follows that.
- Cli.Install: a requested script name is joined to the clone path with the same pathlib rule, so an absolute name is looked up and installed as given, outside the clone.
- MigrationRunner.ApplyPending: a failing migration body is taken to leave the database as it was. Partial writes before the exception are not modelled.
- MigrationRunner.ApplyPending: records each version with the corrected SetSchemaVersion. With the code as written the stored version can be lost (see Findings), so RerunIsNoOp and ResumeAfterFailure hold for the corrected runner only.
- ScriptInstaller.InstallScript: on a failure, the changes already made to the file (dependencies added, shebang rewritten, mode changed) are not returned. Only the error is.
- The console output, progress spinners, result tables and exit codes are not modelled. Each command returns a status instead.
- Configuration.Validate: pydantic's lax coercions are not modelled. For example, the string "2" is not accepted as a clone depth and 1 is not accepted as a boolean; a wrong type is an error.
- `expand_path` is a parameter, and paths are assumed to be normalised strings.
- A failed save of the default configuration is only logged by the source. The model reports the contents to write and ignores whether the write succeeded.
- `verify_uv_available` and the `list` table layout, apart from the source column, are not modelled.
- `datetime.now()` is one timestamp input per command.
- Cli.UpdateAll: the listed snapshot is an input, and the state store's listing order is not modelled.

## Findings

| source | as written | input that shows it | evidently intended | confidence | as-written member | corrected member |
|---|---|---|---|---|---|---|
| src/uv_helper/migrations/runner.py:47-50 | `set_schema_version` updates document 1 only when `metadata.get(doc_id=1)` is truthy. An empty or missing document 1 makes it insert a new document under the next free id, which is never 1 once the table is non-empty. | A metadata table holding `{1: {}}`, or `{2: {...}}`: after setting version 2, `get_schema_version` still returns 0, so every migration re-runs on each start. | The version is always written into document 1, so that it reads back. | medium, not executed | MigrationRunner.AsWrittenLosesVersion | MigrationRunner.SetSchemaVersion |

=== FILE: cli.dfy ===
/** The record-changing parts of the command-line commands `install`,
    `update`, `update-all` and `remove`, and the source column of `list`.
    Git, the installer, the confirmation prompt and the clock are inputs:
    `clone_or_update` and what is read back from the clone come from `git`,
    one `install_script` call from `installer`. */
module Cli {
  import opened Wrappers
  import opened Text
  import opened Paths
  import opened GitUrl
  import opened Configuration
  import opened ScriptState
  import opened ScriptInstaller

  /** The arguments of one `clone_or_update` call. */
  datatype SyncRequest = SyncRequest(url: string, ref: Option<string>, repoPath: Path, depth: int)

  /** What one `clone_or_update` call and the queries after it report: the
      error it raised (if any), the current commit hash, and the default branch. */
  datatype GitProbe = GitProbe(syncError: Option<string>, commit: Result<string, string>,
                               defaultBranch: Result<string, string>)

  /** The repository as seen through git, per call. */
  type Git = SyncRequest -> GitProbe

  /** The outcome of `install_script` for a request: the symlink made, if any, or the error. */
  type Installer = InstallRequest -> Result<Option<Path>, InstallError>

  // ---------------------------------------------------------------- install

  /** The command line of `install`. */
  datatype InstallCommand = InstallCommand(url: string, scripts: seq<string>, force: bool,
                                           noSymlink: bool, installDir: Option<Path>)

  /** The inputs of `install` that come from outside: the URL check, the
      confirmation answer, the clone directory name derived from the URL, git,
      the resolved dependencies, the files present in the clone, the
      installer and the clock. */
  datatype InstallEnv = InstallEnv(isGitUrl: bool, confirmOverwrite: bool, repoName: string, git: Git,
                                   dependencies: Result<seq<string>, string>, present: set<Path>,
                                   installer: Installer, now: int)

  datatype ScriptOutcome = Placed(symlink: Option<Path>) | NotFound | Failed(error: InstallError)

  datatype ScriptResult = ScriptResult(name: string, outcome: ScriptOutcome)

  datatype InstallStatus =
    | InvalidUrl
    | Cancelled
    | GitFailed(message: string)
    | ResolveFailed(message: string)
    | Finished(results: seq<ScriptResult>)

  datatype InstallRun = InstallRun(records: Records, status: InstallStatus)

  /** Whether any requested script is already recorded. */
  predicate AnyInstalled(records: Records, scripts: seq<string>) {
    exists n :: n in scripts && n in records
  }

  /** The clone directory: `repo_dir / <repository name>`. */
  function RepoPathFor(cfg: Config, env: InstallEnv): Path {
    Child(cfg.repoDir, env.repoName)
  }

  /** The `clone_or_update` call of `install`. */
  function InstallSync(cmd: InstallCommand, cfg: Config, env: InstallEnv): SyncRequest {
    var parsed := Parse(cmd.url);
    SyncRequest(parsed.baseUrl, parsed.value, RepoPathFor(cfg, env), cfg.cloneDepth)
  }

  /** `git_ref.ref_value or get_default_branch(repo_path)`: the requested ref
      unless it is absent or empty, and only then the default branch. */
  function RecordedRef(parsed: GitRef, probe: GitProbe): Result<string, string> {
    if parsed.value.Some? && parsed.value.value != "" then Success(parsed.value.value)
    else probe.defaultBranch
  }

  /** A non-empty branch or tag is recorded as given, whatever the
      default-branch lookup reports. */
  lemma RequestedRefIgnoresDefaultBranch(parsed: GitRef, p1: GitProbe, p2: GitProbe)
    requires WellFormed(parsed) && parsed.kind != Default && parsed.value != Some("")
    ensures RecordedRef(parsed, p1) == RecordedRef(parsed, p2) == Success(parsed.value.value)
  {
  }

  /** Without a ref, or with an empty one (which is falsy), the default
      branch, or the error of its lookup, is recorded. */
  lemma MissingOrEmptyRefFallsBackToDefault(parsed: GitRef, probe: GitProbe)
    requires WellFormed(parsed) && (parsed.kind == Default || parsed.value == Some(""))
    ensures RecordedRef(parsed, probe) == probe.defaultBranch
  {
  }

  /** What the per-script loop of `install` shares. */
  datatype Batch = Batch(sourceUrl: string, ref: string, repoPath: Path, commit: string,
                         dependencies: seq<string>, installDir: Path, autoChmod: bool,
                         autoSymlink: bool, verify: bool, present: set<Path>,
                         installer: Installer, now: int)

  /** The `install_script` call for one script. */
  function Request(b: Batch, name: string): InstallRequest {
    InstallRequest(Child(b.repoPath, name), b.dependencies, b.installDir, b.autoChmod, b.autoSymlink, b.verify)
  }

  /** What happens to one requested script. */
  function Attempt(b: Batch, name: string): (o: ScriptOutcome)
    ensures o.NotFound? <==> Child(b.repoPath, name) !in b.present
    ensures o.Placed? ==> b.installer(Request(b, name)) == Success(o.symlink)
    ensures o.Failed? ==> b.installer(Request(b, name)) == Failure(o.error)
  {
    if Child(b.repoPath, name) !in b.present then NotFound
    else
      match b.installer(Request(b, name))
      case Success(link) => Placed(link)
      case Failure(e) => Failed(e)
  }

  /** The record stored for a script installed in this batch. */
  function RecordFor(b: Batch, name: string, link: Option<Path>): ScriptInfo {
    ScriptInfo(name, b.sourceUrl, b.ref, b.now, b.repoPath, link, b.dependencies, b.commit)
  }

  /** The names among `scripts` that install successfully. */
  function InstalledNames(b: Batch, scripts: seq<string>): set<string> {
    set n | n in scripts && Attempt(b, n).Placed?
  }

  /** The installed names of a list: those of its tail, plus its head when that installs. */
  lemma InstalledNamesOfCons(b: Batch, scripts: seq<string>)
    requires scripts != []
    ensures InstalledNames(b, scripts)
         == InstalledNames(b, scripts[1..]) + (if Attempt(b, scripts[0]).Placed? then {scripts[0]} else {})
  {
    assert forall n :: n in scripts <==> n == scripts[0] || n in scripts[1..];
  }

  /** The results of the per-script loop: one per requested script, in order. */
  function ResultsOf(b: Batch, scripts: seq<string>): (results: seq<ScriptResult>)
    ensures |results| == |scripts|
    ensures forall i :: 0 <= i < |scripts| ==> results[i] == ScriptResult(scripts[i], Attempt(b, scripts[i]))
  {
    seq(|scripts|, i requires 0 <= i < |scripts| => ScriptResult(scripts[i], Attempt(b, scripts[i])))
  }

  /** The records after the per-script loop: every installed script's record
      inserted or replaced, in order. */
  function RecordsAfter(records: Records, b: Batch, scripts: seq<string>): (r: Records)
    ensures r.Keys == records.Keys + InstalledNames(b, scripts)
    ensures forall n :: n in r ==>
      r[n] == if n in InstalledNames(b, scripts) then RecordFor(b, n, Attempt(b, n).symlink) else records[n]
    decreases |scripts|
  {
    if scripts == [] then records
    else
      var name := scripts[0];
      var outcome := Attempt(b, name);
      var next := if outcome.Placed? then AddScript(records, RecordFor(b, name, outcome.symlink)) else records;
      InstalledNamesOfCons(b, scripts);
      RecordsAfter(next, b, scripts[1..])
  }

  /** The per-script loop of `install`: one result per requested script, in
      order; a missing or failing script does not stop the others; every
      installed script's record is inserted or replaced. */
  function InstallEach(records: Records, b: Batch, scripts: seq<string>): (r: (Records, seq<ScriptResult>))
    ensures |r.1| == |scripts|
    ensures forall i :: 0 <= i < |scripts| ==> r.1[i] == ScriptResult(scripts[i], Attempt(b, scripts[i]))
    ensures r.0.Keys == records.Keys + InstalledNames(b, scripts)
    ensures forall n :: n in r.0 ==>
      r.0[n] == if n in InstalledNames(b, scripts) then RecordFor(b, n, Attempt(b, n).symlink) else records[n]
  {
    (RecordsAfter(records, b, scripts), ResultsOf(b, scripts))
  }

  /** Whether `install` gets past the URL check and the overwrite prompt. */
  predicate Proceeds(records: Records, cmd: InstallCommand, env: InstallEnv) {
    env.isGitUrl && !(AnyInstalled(records, cmd.scripts) && !cmd.force && !env.confirmOverwrite)
  }

  /** Whether git reports everything `install` reads back from the clone. */
  predicate GitReady(cmd: InstallCommand, probe: GitProbe) {
    probe.syncError.None? && probe.commit.Success? && RecordedRef(Parse(cmd.url), probe).Success?
  }

  /** Whether some result reports `n` as installed. */
  predicate PlacedIn(results: seq<ScriptResult>, n: string) {
    exists i :: 0 <= i < |results| && results[i].name == n && results[i].outcome.Placed?
  }

  /** The end of a successful `install`: the per-script loop over the batch. */
  function Finish(records: Records, b: Batch, scripts: seq<string>): (r: InstallRun)
    ensures r.status.Finished?
    ensures |r.status.results| == |scripts|
    ensures forall i :: 0 <= i < |scripts| ==>
      && r.status.results[i].name == scripts[i]
      && r.status.results[i].outcome == Attempt(b, scripts[i])
      && (r.status.results[i].outcome.NotFound? <==> Child(b.repoPath, scripts[i]) !in b.present)
    ensures forall n :: n in r.records <==> n in records || PlacedIn(r.status.results, n)
    ensures forall i :: 0 <= i < |scripts| && r.status.results[i].outcome.Placed? ==>
      && scripts[i] in r.records
      && r.records[scripts[i]] == RecordFor(b, scripts[i], r.status.results[i].outcome.symlink)
    ensures forall n :: n in records && !PlacedIn(r.status.results, n) ==> r.records[n] == records[n]
  {
    var (recs, results) := InstallEach(records, b, scripts);
    assert forall i :: 0 <= i < |scripts| && results[i].outcome.Placed? ==> scripts[i] in InstalledNames(b, scripts);
    assert forall n :: PlacedIn(results, n) <==> n in InstalledNames(b, scripts) by {
      forall n
        ensures PlacedIn(results, n) <==> n in InstalledNames(b, scripts)
      {
        if n in InstalledNames(b, scripts) {
          var i :| 0 <= i < |scripts| && scripts[i] == n;
          assert results[i].name == n;
        }
      }
    }
    InstallRun(recs, Finished(results))
  }

  /** The batch of a successful `install`: the base URL and the ref and
      commit read back are recorded; the scripts are looked up in the clone
      and go to `--install-dir` or else the configured directory, with a
      symlink only when neither `--no-symlink` nor the configuration turns
      it off. */
  function InstallBatch(cmd: InstallCommand, cfg: Config, env: InstallEnv, ref: string, commit: string,
                        deps: seq<string>): (b: Batch)
    ensures forall name :: (
      Request(b, name) == InstallRequest(Child(RepoPathFor(cfg, env), name), deps,
                                         cmd.installDir.GetOr(cfg.installDir), cfg.autoChmod,
                                         !cmd.noSymlink && cfg.autoSymlink, cfg.verifyAfterInstall))
  {
    Batch(Parse(cmd.url).baseUrl, ref, RepoPathFor(cfg, env), commit, deps,
          cmd.installDir.GetOr(cfg.installDir), cfg.autoChmod,
          !cmd.noSymlink && cfg.autoSymlink, cfg.verifyAfterInstall,
          env.present, env.installer, env.now)
  }

  /** `install`. */
  function Install(records: Records, cmd: InstallCommand, cfg: Config, env: InstallEnv): (r: InstallRun)
    ensures !r.status.Finished? ==> r.records == records
    ensures var probe := env.git(InstallSync(cmd, cfg, env));
      && (r.status.GitFailed? <==> Proceeds(records, cmd, env) && !GitReady(cmd, probe))
      && (r.status.GitFailed? && probe.syncError.Some? ==> r.status.message == probe.syncError.value)
      && (r.status.ResolveFailed? <==>
            Proceeds(records, cmd, env) && GitReady(cmd, probe) && env.dependencies.Failure?)
      && (r.status.Finished? <==>
            Proceeds(records, cmd, env) && GitReady(cmd, probe) && env.dependencies.Success?)
    ensures r.status == InvalidUrl <==> !env.isGitUrl
    ensures r.status == Cancelled <==>
      env.isGitUrl && AnyInstalled(records, cmd.scripts) && !cmd.force && !env.confirmOverwrite
    ensures r.status.Finished? ==>
      && |r.status.results| == |cmd.scripts|
      && (forall i :: 0 <= i < |cmd.scripts| ==> r.status.results[i].name == cmd.scripts[i])
      && (forall i :: 0 <= i < |cmd.scripts| ==>
            (r.status.results[i].outcome.NotFound? <==> Child(RepoPathFor(cfg, env), cmd.scripts[i]) !in env.present))
      && (forall n :: n in records ==> n in r.records)
    ensures r.status.Finished? ==>
      var probe := env.git(InstallSync(cmd, cfg, env));
      forall i :: 0 <= i < |cmd.scripts| && r.status.results[i].outcome.Placed? ==>
        && cmd.scripts[i] in r.records
        && var info := r.records[cmd.scripts[i]];
        && info.name == cmd.scripts[i]
        && info.sourceUrl == Parse(cmd.url).baseUrl
        && info.repoPath == RepoPathFor(cfg, env)
        && info.symlinkPath == r.status.results[i].outcome.symlink
        && probe.commit == Success(info.commitHash)
        && RecordedRef(Parse(cmd.url), probe) == Success(info.ref)
        && env.dependencies == Success(info.dependencies)
        && info.installedAt == env.now
    ensures r.status.Finished? ==>
      forall n :: n in records && n !in cmd.scripts ==> r.records[n] == records[n]
  {
    if !env.isGitUrl then InstallRun(records, InvalidUrl)
    else if AnyInstalled(records, cmd.scripts) && !cmd.force && !env.confirmOverwrite then
      InstallRun(records, Cancelled)
    else
      var parsed := Parse(cmd.url);
      var probe := env.git(InstallSync(cmd, cfg, env));
      if probe.syncError.Some? then InstallRun(records, GitFailed(probe.syncError.value))
      else if probe.commit.Failure? then InstallRun(records, GitFailed(probe.commit.error))
      else
        match RecordedRef(parsed, probe)
        case Failure(e) => InstallRun(records, GitFailed(e))
        case Success(ref) =>
          match env.dependencies
          case Failure(e) => InstallRun(records, ResolveFailed(e))
          case Success(deps) =>
            Finish(records, InstallBatch(cmd, cfg, env, ref, probe.commit.value, deps), cmd.scripts)
  }

  /** What a finished `install` did with each requested script: the outcome
      is that of the batch built from the command, the configuration and
      what git read back; a placed or failed script reports exactly what
      the installer returned for the request with the chosen install
      directory and flags; and only placed scripts change the records. */
  lemma InstallRunsTheBatch(records: Records, cmd: InstallCommand, cfg: Config, env: InstallEnv)
    ensures var r := Install(records, cmd, cfg, env);
      && (r.status.Finished? ==>
           var probe := env.git(InstallSync(cmd, cfg, env));
           var b := InstallBatch(cmd, cfg, env, RecordedRef(Parse(cmd.url), probe).value, probe.commit.value,
                                 env.dependencies.value);
           forall i :: 0 <= i < |cmd.scripts| ==> r.status.results[i].outcome == Attempt(b, cmd.scripts[i]))
      && (r.status.Finished? ==>
         forall i :: 0 <= i < |cmd.scripts| ==>
           var outcome := r.status.results[i].outcome;
           var req := InstallRequest(Child(RepoPathFor(cfg, env), cmd.scripts[i]), env.dependencies.value,
                                     cmd.installDir.GetOr(cfg.installDir), cfg.autoChmod,
                                     !cmd.noSymlink && cfg.autoSymlink, cfg.verifyAfterInstall);
           && (outcome.Placed? ==> env.installer(req) == Success(outcome.symlink))
           && (outcome.Failed? ==> env.installer(req) == Failure(outcome.error)))
      && (r.status.Finished? ==>
         && (forall n :: n in r.records ==> n in records || PlacedIn(r.status.results, n))
         && (forall n :: n in records && !PlacedIn(r.status.results, n) ==> r.records[n] == records[n]))
  {
  }

  // ----------------------------------------------------------------- update

  datatype UpdateStatus =
    | UpToDate
    | Updated
    | GitError(message: string)
    | InstallerError(error: InstallError)
    | NotInstalled

  /** The `clone_or_update` call of an update: the recorded URL, ref and clone. */
  function UpdateSync(info: ScriptInfo, cfg: Config): SyncRequest {
    SyncRequest(info.sourceUrl, Some(info.ref), info.repoPath, cfg.cloneDepth)
  }

  /** The ref recorded after an update: the default branch, or the recorded
      ref when that lookup fails. */
  function ActualBranch(info: ScriptInfo, probe: GitProbe): (ref: string)
    ensures probe.defaultBranch.Failure? ==> ref == info.ref
    ensures probe.defaultBranch.Success? ==> ref == probe.defaultBranch.value
  {
    match probe.defaultBranch
    case Success(branch) => branch
    case Failure(_) => info.ref
  }

  /** The `install_script` call of an update. */
  function ReinstallRequest(scriptName: string, info: ScriptInfo, cfg: Config): InstallRequest {
    InstallRequest(Child(info.repoPath, scriptName), info.dependencies, cfg.installDir,
                   cfg.autoChmod, cfg.autoSymlink, cfg.verifyAfterInstall)
  }

  /** Updating one recorded script (shared by `update` and `update-all`).
      Same commit and no force: up to date, with only the ref refreshed;
      otherwise reinstall and refresh commit, ref, time and symlink. */
  function UpdateOne(records: Records, scriptName: string, info: ScriptInfo, force: bool, cfg: Config,
                     git: Git, installer: Installer, now: int): (r: (Records, UpdateStatus))
    ensures r.1.GitError? || r.1.InstallerError? ==> r.0 == records
    ensures !r.1.NotInstalled?
    ensures records.Keys <= r.0.Keys <= records.Keys + {info.name}
    ensures forall n :: n in records && n != info.name ==> r.0[n] == records[n]
    ensures WellKeyed(records) ==> WellKeyed(r.0)
    ensures var probe := git(UpdateSync(info, cfg));
      r.1.GitError? <==> probe.syncError.Some? || probe.commit.Failure?
    ensures var probe := git(UpdateSync(info, cfg));
      var reinstall := probe.syncError.None? && probe.commit.Success?
        && (probe.commit.value != info.commitHash || force);
      && (r.1 == Updated <==> reinstall && installer(ReinstallRequest(scriptName, info, cfg)).Success?)
      && (r.1.InstallerError? <==> reinstall && installer(ReinstallRequest(scriptName, info, cfg)).Failure?)
    ensures var probe := git(UpdateSync(info, cfg));
      r.1 == UpToDate <==>
        probe.syncError.None? && probe.commit.Success? && probe.commit.value == info.commitHash && !force
    ensures var probe := git(UpdateSync(info, cfg));
      r.1 == UpToDate ==>
        var actual := ActualBranch(info, probe);
        && (actual == info.ref ==> r.0 == records)
        && (actual != info.ref ==> r.0 == AddScript(records, info.(ref := actual)))
    ensures var probe := git(UpdateSync(info, cfg));
      r.1 == Updated ==>
        && r.0.Keys == records.Keys + {info.name}
        && (forall n :: n in records && n != info.name ==> r.0[n] == records[n])
        && var updated := r.0[info.name];
        && updated.name == info.name
        && updated.sourceUrl == info.sourceUrl
        && updated.repoPath == info.repoPath
        && updated.dependencies == info.dependencies
        && probe.commit == Success(updated.commitHash)
        && updated.ref == ActualBranch(info, probe)
        && updated.installedAt == now
        && installer(ReinstallRequest(scriptName, info, cfg)) == Success(updated.symlinkPath)
  {
    var probe := git(UpdateSync(info, cfg));
    if probe.syncError.Some? then (records, GitError(probe.syncError.value))
    else if probe.commit.Failure? then (records, GitError(probe.commit.error))
    else
      var newHash := probe.commit.value;
      var actual := ActualBranch(info, probe);
      if newHash == info.commitHash && !force then
        (if actual != info.ref then AddScript(records, info.(ref := actual)) else records, UpToDate)
      else
        match installer(ReinstallRequest(scriptName, info, cfg))
        case Failure(e) => (records, InstallerError(e))
        case Success(link) =>
          var updated := info.(commitHash := newHash, ref := actual, installedAt := now, symlinkPath := link);
          (AddScript(records, updated), Updated)
  }

  /** The status of an update does not depend on the other records. */
  lemma UpdateStatusIgnoresRecords(r1: Records, r2: Records, scriptName: string, info: ScriptInfo, force: bool,
                                   cfg: Config, git: Git, installer: Installer, now: int)
    ensures UpdateOne(r1, scriptName, info, force, cfg, git, installer, now).1
         == UpdateOne(r2, scriptName, info, force, cfg, git, installer, now).1
  {
  }

  /** `update <name>`. */
  function Update(records: Records, name: string, force: bool, cfg: Config,
                  git: Git, installer: Installer, now: int): (r: (Records, UpdateStatus))
    ensures name !in records <==> r.1 == NotInstalled
    ensures r.1 == NotInstalled ==> r.0 == records
    ensures name in records ==> r == UpdateOne(records, name, records[name], force, cfg, git, installer, now)
    ensures WellKeyed(records) ==>
      && r.0.Keys == records.Keys
      && WellKeyed(r.0)
      && (forall n :: n in records && n != name ==> r.0[n] == records[n])
  {
    if name !in records then (records, NotInstalled)
    else UpdateOne(records, name, records[name], force, cfg, git, installer, now)
  }

  /** A completed update records the repository's default branch as the
      script's ref whenever that lookup succeeds, so a script installed at
      a tag is afterwards recorded on the default branch. */
  lemma UpdateRecordsDefaultBranch(records: Records, name: string, force: bool, cfg: Config,
                                   git: Git, installer: Installer, now: int, branch: string)
    requires WellKeyed(records) && name in records
    requires git(UpdateSync(records[name], cfg)).defaultBranch == Success(branch)
    ensures var r := Update(records, name, force, cfg, git, installer, now);
      r.1 == UpToDate || r.1 == Updated ==> name in r.0 && r.0[name].ref == branch
  {
    var r := Update(records, name, force, cfg, git, installer, now);
    assert r == UpdateOne(records, name, records[name], force, cfg, git, installer, now);
    assert records[name].name == name;
  }

  datatype UpdateResult = UpdateResult(name: string, status: UpdateStatus)

  /** No listed record carries the name `n`. */
  predicate Unlisted(listed: seq<ScriptInfo>, n: string) {
    forall i :: 0 <= i < |listed| ==> listed[i].name != n
  }

  /** `listed` is a listing of `records`: each entry is the record stored
      under its name, and no name occurs twice. */
  predicate Snapshot(records: Records, listed: seq<ScriptInfo>) {
    && (forall i :: 0 <= i < |listed| ==> listed[i].name in records && records[listed[i].name] == listed[i])
    && (forall i, j :: 0 <= i < j < |listed| ==> listed[i].name != listed[j].name)
  }

  /** An update's effect on its own record depends only on that record. */
  lemma UpdateEntryIgnoresOthers(r1: Records, r2: Records, info: ScriptInfo, force: bool,
                                 cfg: Config, git: Git, installer: Installer, now: int)
    requires info.name in r1 && info.name in r2 && r1[info.name] == r2[info.name]
    ensures UpdateOne(r1, info.name, info, force, cfg, git, installer, now).0[info.name]
         == UpdateOne(r2, info.name, info, force, cfg, git, installer, now).0[info.name]
  {
  }

  /** After the first update of a listing, the rest is a listing of the
      new records, and updating any of them gives its record as it would have
      on the old records. */
  lemma SnapshotAfterFirst(records: Records, listed: seq<ScriptInfo>, force: bool, cfg: Config,
                           git: Git, installer: Installer, now: int)
    requires Snapshot(records, listed) && listed != []
    ensures var next := UpdateOne(records, listed[0].name, listed[0], force, cfg, git, installer, now).0;
      && Snapshot(next, listed[1..])
      && Unlisted(listed[1..], listed[0].name)
      && forall i :: 1 <= i < |listed| ==>
           UpdateOne(next, listed[i].name, listed[i], force, cfg, git, installer, now).0[listed[i].name]
           == UpdateOne(records, listed[i].name, listed[i], force, cfg, git, installer, now).0[listed[i].name]
  {
    var next := UpdateOne(records, listed[0].name, listed[0], force, cfg, git, installer, now).0;
    assert forall k :: 0 <= k < |listed| - 1 ==> listed[1..][k] == listed[k + 1];
    forall i | 1 <= i < |listed|
      ensures UpdateOne(next, listed[i].name, listed[i], force, cfg, git, installer, now).0[listed[i].name]
           == UpdateOne(records, listed[i].name, listed[i], force, cfg, git, installer, now).0[listed[i].name]
    {
      UpdateEntryIgnoresOthers(next, records, listed[i], force, cfg, git, installer, now);
    }
  }

  /** `update-all` over the listed records, in order: one result per record,
      each as a single update would report it, and an error for one script
      does not stop the others. */
  function UpdateAll(records: Records, listed: seq<ScriptInfo>, force: bool, cfg: Config,
                     git: Git, installer: Installer, now: int): (r: (Records, seq<UpdateResult>))
    ensures |r.1| == |listed|
    ensures forall i :: 0 <= i < |listed| ==>
      r.1[i] == UpdateResult(listed[i].name, UpdateOne(records, listed[i].name, listed[i], force, cfg, git, installer, now).1)
    ensures (forall i :: 0 <= i < |listed| ==> listed[i].name in records) ==> r.0.Keys == records.Keys
    ensures WellKeyed(records) ==> WellKeyed(r.0)
    ensures records.Keys <= r.0.Keys
    decreases |listed|
  {
    if listed == [] then (records, [])
    else
      var info := listed[0];
      var (next, status) := UpdateOne(records, info.name, info, force, cfg, git, installer, now);
      var rest := UpdateAll(next, listed[1..], force, cfg, git, installer, now);
      forall i | 0 <= i < |listed| - 1
        ensures UpdateOne(next, listed[1..][i].name, listed[1..][i], force, cfg, git, installer, now).1
             == UpdateOne(records, listed[1..][i].name, listed[1..][i], force, cfg, git, installer, now).1
      {
        UpdateStatusIgnoresRecords(next, records, listed[1..][i].name, listed[1..][i], force, cfg, git, installer, now);
      }
      (rest.0, [UpdateResult(info.name, status)] + rest.1)
  }

  /** `update-all` leaves a record that no listed entry names as it was. */
  lemma {:induction false} UpdateAllKeepsUnlisted(records: Records, listed: seq<ScriptInfo>, force: bool, cfg: Config,
                                                  git: Git, installer: Installer, now: int)
    ensures var r := UpdateAll(records, listed, force, cfg, git, installer, now);
      forall n :: n in records && Unlisted(listed, n) ==> n in r.0 && r.0[n] == records[n]
    decreases |listed|
  {
    if listed != [] {
      var info := listed[0];
      var next := UpdateOne(records, info.name, info, force, cfg, git, installer, now).0;
      assert UpdateAll(records, listed, force, cfg, git, installer, now).0
          == UpdateAll(next, listed[1..], force, cfg, git, installer, now).0;
      UpdateAllKeepsUnlisted(next, listed[1..], force, cfg, git, installer, now);
      assert forall n :: Unlisted(listed, n) ==> n != info.name && Unlisted(listed[1..], n);
    }
  }

  /** Over a listing of the records, `update-all` leaves each listed record
      exactly as updating it alone would. */
  lemma {:induction false} UpdateAllWritesEach(records: Records, listed: seq<ScriptInfo>, force: bool, cfg: Config,
                                               git: Git, installer: Installer, now: int)
    requires Snapshot(records, listed)
    ensures var r := UpdateAll(records, listed, force, cfg, git, installer, now);
      forall i :: 0 <= i < |listed| ==>
        && listed[i].name in r.0
        && listed[i].name in UpdateOne(records, listed[i].name, listed[i], force, cfg, git, installer, now).0
        && r.0[listed[i].name]
           == UpdateOne(records, listed[i].name, listed[i], force, cfg, git, installer, now).0[listed[i].name]
    decreases |listed|
  {
    if listed != [] {
      var info := listed[0];
      var next := UpdateOne(records, info.name, info, force, cfg, git, installer, now).0;
      var rest := UpdateAll(next, listed[1..], force, cfg, git, installer, now);
      assert UpdateAll(records, listed, force, cfg, git, installer, now).0 == rest.0;
      SnapshotAfterFirst(records, listed, force, cfg, git, installer, now);
      UpdateAllWritesEach(next, listed[1..], force, cfg, git, installer, now);
      UpdateAllKeepsUnlisted(next, listed[1..], force, cfg, git, installer, now);
      forall i | 0 <= i < |listed|
        ensures listed[i].name in rest.0
        ensures rest.0[listed[i].name]
             == UpdateOne(records, listed[i].name, listed[i], force, cfg, git, installer, now).0[listed[i].name]
      {
        if i > 0 {
          assert listed[i] == listed[1..][i - 1];
        }
      }
    }
  }

  // ----------------------------------------------------------------- remove

  datatype RemoveStatus =
    | Missing
    | Declined
    | Removed(unlinked: Option<Path>, deletedRepo: Option<Path>)
    | RemoveFailed(error: InstallError)

  /** `remove <name>`: unknown names and declined confirmations change
      nothing; otherwise the installation is removed. */
  function Remove(records: Records, name: string, cleanRepo: bool, force: bool, confirm: bool,
                  fsError: Option<string>): (r: (Records, RemoveStatus))
    ensures !r.1.Removed? ==> r.0 == records
    ensures r.1 == Missing <==> name !in records
    ensures r.1 == Declined <==> name in records && !force && !confirm
    ensures r.1.Removed? <==> name in records && (force || confirm) && fsError.None?
    ensures r.1.RemoveFailed? <==> name in records && (force || confirm) && fsError.Some?
    ensures r.1.Removed? ==>
      && r.0.Keys == records.Keys - {name}
      && (forall n :: n in r.0 ==> r.0[n] == records[n])
      && (r.1.deletedRepo.Some? <==>
            cleanRepo && forall n :: n in records && n != name ==> records[n].repoPath != records[name].repoPath)
  {
    if name !in records then (records, Missing)
    else if !force && !confirm then (records, Declined)
    else
      match RemoveScriptInstallation(records, name, cleanRepo, fsError)
      case Failure(e) => (records, RemoveFailed(e))
      case Success(removal) => (removal.records, Removed(removal.unlinked, removal.deletedRepo))
  }

  /** Removing one of two records that share a clone never deletes the clone. */
  lemma SharedCloneSurvivesRemoval(records: Records, name: string, other: string, force: bool, confirm: bool)
    requires name in records && other in records && name != other
    requires records[name].repoPath == records[other].repoPath
    ensures var r := Remove(records, name, true, force, confirm, None);
      r.1.Removed? ==> r.1.deletedRepo == None
  {
  }

  // ------------------------------------------------------------------- list

  /** The source column of `list`: the last two '/'-separated pieces of the
      URL joined by '/' (the single piece twice when there is no '/'). */
  function SourceColumn(url: string): (col: string)
    ensures '/' in col
  {
    var parts := Split(url, '/');
    var lastTwo := parts[if |parts| >= 2 then |parts| - 2 else 0..];
    var col := lastTwo[0] + "/" + parts[|parts| - 1];
    assert col[|lastTwo[0]|] == '/';
    col
  }

  /** For `<prefix>/<owner>/<repo>` the column is `<owner>/<repo>`. */
  lemma {:induction false} SourceColumnOwnerRepo(prefix: string, owner: string, repo: string)
    requires '/' !in owner && '/' !in repo
    ensures SourceColumn(prefix + "/" + owner + "/" + repo) == owner + "/" + repo
  {
    SplitWithoutSeparator(owner, '/');
    SplitWithoutSeparator(repo, '/');
    SplitAround(owner, '/', repo);
    assert prefix + "/" + owner + "/" + repo == prefix + ['/'] + (owner + ['/'] + repo);
    SplitAround(prefix, '/', owner + ['/'] + repo);
    var parts := Split(prefix + "/" + owner + "/" + repo, '/');
    assert parts == Split(prefix, '/') + [owner, repo];
  }

  /** A URL without '/' shows as itself twice. */
  lemma SourceColumnWithoutSlash(url: string)
    requires '/' !in url
    ensures SourceColumn(url) == url + "/" + url
  {
    SplitWithoutSeparator(url, '/');
  }
}

=== FILE: configuration.dfy ===
/** The configuration record, its defaults and validation, its TOML layout,
    and where it is loaded from. `expand_path` (home and environment-variable
    expansion) is left abstract as the parameter `expand`. */
module Configuration {
  import opened Wrappers
  import opened Paths

  /** A TOML scalar as it appears in the configuration file. */
  datatype Value = Str(s: string) | Int(i: int) | Bool(b: bool)

  /** A TOML table of scalars, and a document of such tables. */
  type Section = map<string, Value>
  type Toml = map<string, Section>

  datatype Config = Config(
    repoDir: Path,
    installDir: Path,
    stateFile: Path,
    cloneDepth: int,
    autoSymlink: bool,
    verifyAfterInstall: bool,
    autoChmod: bool,
    useExactFlag: bool)

  /** The field constraint: a clone depth of at least one commit. */
  predicate Valid(c: Config) {
    c.cloneDepth >= 1
  }

  const DefaultRepoDir: string := "~/.local/share/uv-helper"
  const DefaultInstallDir: string := "~/.local/bin"
  const DefaultStateFile: string := "~/.local/share/uv-helper/state.json"
  const DefaultConfigFile: string := "~/.config/uv-helper/config.toml"
  const DefaultCloneDepth: int := 1

  /** The environment variable that overrides the configuration file location. */
  const ConfigVariable: string := "UV_HELPER_CONFIG"

  /** Why validation rejected the values. */
  datatype ConfigError = CloneDepthBelowOne(depth: int) | WrongType(field: string)

  /** A path field's input: text to be expanded, or a path taken as is. */
  datatype PathInput = Text(text: string) | Resolved(path: Path)

  /** The `expand_paths` validator. */
  function ExpandField(v: PathInput, expand: string -> Path): (p: Path)
    ensures v.Resolved? ==> p == v.path
    ensures v.Text? ==> p == expand(v.text)
  {
    match v
    case Text(s) => expand(s)
    case Resolved(p) => p
  }

  /** Building a `Config` from field values: path fields go through the
      validator, and a clone depth below 1 is rejected. */
  function NewConfig(repoDir: PathInput, installDir: PathInput, stateFile: PathInput,
                     cloneDepth: int, autoSymlink: bool, verifyAfterInstall: bool,
                     autoChmod: bool, useExactFlag: bool, expand: string -> Path): (r: Result<Config, ConfigError>)
    ensures r.Success? <==> cloneDepth >= 1
    ensures r.Failure? ==> r.error == CloneDepthBelowOne(cloneDepth)
    ensures r.Success? ==>
      && Valid(r.value)
      && r.value.repoDir == ExpandField(repoDir, expand)
      && r.value.installDir == ExpandField(installDir, expand)
      && r.value.stateFile == ExpandField(stateFile, expand)
      && r.value.cloneDepth == cloneDepth
      && r.value.autoSymlink == autoSymlink && r.value.verifyAfterInstall == verifyAfterInstall
      && r.value.autoChmod == autoChmod && r.value.useExactFlag == useExactFlag
  {
    if cloneDepth < 1 then Failure(CloneDepthBelowOne(cloneDepth))
    else
      Success(Config(ExpandField(repoDir, expand), ExpandField(installDir, expand),
                     ExpandField(stateFile, expand), cloneDepth, autoSymlink,
                     verifyAfterInstall, autoChmod, useExactFlag))
  }

  /** `create_default_config`: the three default locations, every other field at its default. */
  function DefaultConfig(expand: string -> Path): (c: Config)
    ensures Valid(c)
    ensures c.cloneDepth == 1
    ensures c.autoSymlink && c.verifyAfterInstall && c.autoChmod && c.useExactFlag
    ensures NewConfig(Text(DefaultRepoDir), Text(DefaultInstallDir), Text(DefaultStateFile),
                      DefaultCloneDepth, true, true, true, true, expand) == Success(c)
  {
    Config(expand(DefaultRepoDir), expand(DefaultInstallDir), expand(DefaultStateFile),
           DefaultCloneDepth, true, true, true, true)
  }

  /** One entry of the file layout: section, key, and the default used when it is absent. */
  datatype Field = Field(section: string, key: string, default: Value)

  /** The file layout, shared by saving and loading. */
  const Layout: seq<Field> := [
    Field("paths", "repo_dir", Str(DefaultRepoDir)),
    Field("paths", "install_dir", Str(DefaultInstallDir)),
    Field("paths", "state_file", Str(DefaultStateFile)),
    Field("git", "clone_depth", Int(DefaultCloneDepth)),
    Field("install", "auto_symlink", Bool(true)),
    Field("install", "verify_after_install", Bool(true)),
    Field("install", "auto_chmod", Bool(true)),
    Field("install", "use_exact_flag", Bool(true))
  ]

  /** `data.get(section, {}).get(key, default)` */
  function Lookup(data: Toml, section: string, key: string, default: Value): Value {
    if section in data && key in data[section] then data[section][key] else default
  }

  /** The flattened field map of `load_config`: every field of the layout,
      from the file when present and from its default otherwise. */
  function Flatten(data: Toml): (flat: map<string, Value>)
    ensures flat.Keys == {"repo_dir", "install_dir", "state_file", "clone_depth",
                          "auto_symlink", "verify_after_install", "auto_chmod", "use_exact_flag"}
    ensures forall i :: 0 <= i < |Layout| ==>
      var f := Layout[i];
      flat[f.key] == if f.section in data && f.key in data[f.section] then data[f.section][f.key] else f.default
  {
    map[
      "repo_dir" := Lookup(data, "paths", "repo_dir", Str(DefaultRepoDir)),
      "install_dir" := Lookup(data, "paths", "install_dir", Str(DefaultInstallDir)),
      "state_file" := Lookup(data, "paths", "state_file", Str(DefaultStateFile)),
      "clone_depth" := Lookup(data, "git", "clone_depth", Int(DefaultCloneDepth)),
      "auto_symlink" := Lookup(data, "install", "auto_symlink", Bool(true)),
      "verify_after_install" := Lookup(data, "install", "verify_after_install", Bool(true)),
      "auto_chmod" := Lookup(data, "install", "auto_chmod", Bool(true)),
      "use_exact_flag" := Lookup(data, "install", "use_exact_flag", Bool(true))
    ]
  }

  /** A path field of the flattened map: a string to expand. */
  function PathField(flat: map<string, Value>, key: string): Result<PathInput, ConfigError> {
    if key in flat && flat[key].Str? then Success(Text(flat[key].s)) else Failure(WrongType(key))
  }

  /** A boolean field of the flattened map. */
  function BoolField(flat: map<string, Value>, key: string): Result<bool, ConfigError> {
    if key in flat && flat[key].Bool? then Success(flat[key].b) else Failure(WrongType(key))
  }

  /** Every field of the flattened map is present with its declared type:
      text for the paths, an integer for the depth, booleans for the flags. */
  predicate WellTyped(flat: map<string, Value>) {
    && "repo_dir" in flat && flat["repo_dir"].Str?
    && "install_dir" in flat && flat["install_dir"].Str?
    && "state_file" in flat && flat["state_file"].Str?
    && "clone_depth" in flat && flat["clone_depth"].Int?
    && "auto_symlink" in flat && flat["auto_symlink"].Bool?
    && "verify_after_install" in flat && flat["verify_after_install"].Bool?
    && "auto_chmod" in flat && flat["auto_chmod"].Bool?
    && "use_exact_flag" in flat && flat["use_exact_flag"].Bool?
  }

  /** `Config.model_validate(flat_data)`: each field must have its type,
      then the constructor's validation applies. */
  function Validate(flat: map<string, Value>, expand: string -> Path): (r: Result<Config, ConfigError>)
    ensures r.Success? <==> WellTyped(flat) && flat["clone_depth"].i >= 1
    ensures !WellTyped(flat) ==> r.Failure? && r.error.WrongType?
    ensures WellTyped(flat) && flat["clone_depth"].i < 1 ==>
      r == Failure(CloneDepthBelowOne(flat["clone_depth"].i))
    ensures r.Success? ==> Valid(r.value)
    ensures r.Success? ==>
      && r.value.repoDir == expand(flat["repo_dir"].s)
      && r.value.installDir == expand(flat["install_dir"].s)
      && r.value.stateFile == expand(flat["state_file"].s)
      && r.value.cloneDepth == flat["clone_depth"].i
      && r.value.autoSymlink == flat["auto_symlink"].b
      && r.value.verifyAfterInstall == flat["verify_after_install"].b
      && r.value.autoChmod == flat["auto_chmod"].b
      && r.value.useExactFlag == flat["use_exact_flag"].b
  {
    var repo := PathField(flat, "repo_dir");
    var install := PathField(flat, "install_dir");
    var state := PathField(flat, "state_file");
    var symlink := BoolField(flat, "auto_symlink");
    var verify := BoolField(flat, "verify_after_install");
    var chmod := BoolField(flat, "auto_chmod");
    var exact := BoolField(flat, "use_exact_flag");
    if repo.Failure? then Failure(repo.error)
    else if install.Failure? then Failure(install.error)
    else if state.Failure? then Failure(state.error)
    else if !("clone_depth" in flat && flat["clone_depth"].Int?) then Failure(WrongType("clone_depth"))
    else if symlink.Failure? then Failure(symlink.error)
    else if verify.Failure? then Failure(verify.error)
    else if chmod.Failure? then Failure(chmod.error)
    else if exact.Failure? then Failure(exact.error)
    else NewConfig(repo.value, install.value, state.value, flat["clone_depth"].i,
                   symlink.value, verify.value, chmod.value, exact.value, expand)
  }

  /** A configuration read from the contents of a file. */
  function FromToml(data: Toml, expand: string -> Path): (r: Result<Config, ConfigError>)
    ensures r.Success? ==> Valid(r.value)
  {
    Validate(Flatten(data), expand)
  }

  /** `Config.save`: the three sections with exactly their keys; paths are written as text. */
  function Save(c: Config): (data: Toml)
    ensures data.Keys == {"paths", "git", "install"}
    ensures data["paths"].Keys == {"repo_dir", "install_dir", "state_file"}
    ensures data["git"].Keys == {"clone_depth"}
    ensures data["install"].Keys == {"auto_symlink", "verify_after_install", "auto_chmod", "use_exact_flag"}
    ensures forall i :: 0 <= i < |Layout| ==> Layout[i].section in data && Layout[i].key in data[Layout[i].section]
  {
    map[
      "paths" := map[
        "repo_dir" := Str(c.repoDir),
        "install_dir" := Str(c.installDir),
        "state_file" := Str(c.stateFile)],
      "git" := map["clone_depth" := Int(c.cloneDepth)],
      "install" := map[
        "auto_symlink" := Bool(c.autoSymlink),
        "verify_after_install" := Bool(c.verifyAfterInstall),
        "auto_chmod" := Bool(c.autoChmod),
        "use_exact_flag" := Bool(c.useExactFlag)]
    ]
  }

  /** Save then load gives back every field; the saved path text goes
      through `expand` once more. */
  lemma SaveLoadRoundTrip(c: Config, expand: string -> Path)
    requires Valid(c)
    ensures FromToml(Save(c), expand)
         == Success(c.(repoDir := expand(c.repoDir), installDir := expand(c.installDir),
                       stateFile := expand(c.stateFile)))
  {
    var flat := Flatten(Save(c));
    assert flat["clone_depth"] == Int(c.cloneDepth);
  }

  /** A file with no sections gives the same configuration as no file at all. */
  lemma EmptyFileGivesDefaults(expand: string -> Path)
    ensures FromToml(map[], expand) == Success(DefaultConfig(expand))
  {
  }

  /** A clone depth below 1 in the file is rejected on load. */
  lemma ShallowerThanOneRejected(data: Toml, depth: int, expand: string -> Path)
    requires "git" in data && "clone_depth" in data["git"] && data["git"]["clone_depth"] == Int(depth)
    requires depth < 1
    ensures FromToml(data, expand).Failure?
  {
    assert Flatten(data)["clone_depth"] == Int(depth);
  }

  /** `get_config_path`: a non-empty `UV_HELPER_CONFIG` wins over the default location. */
  function GetConfigPath(variable: Option<string>, expand: string -> Path): (p: Path)
    ensures variable.Some? && variable.value != "" ==> p == expand(variable.value)
    ensures variable.None? || variable.value == "" ==> p == expand(DefaultConfigFile)
  {
    if variable.Some? && variable.value != "" then expand(variable.value) else expand(DefaultConfigFile)
  }

  /** What `load_config` produced: the configuration, the file it belongs to,
      and, when that file did not exist, the contents written there (a failed
      write is only logged, so it does not change the result). */
  datatype Loaded = Loaded(config: Config, path: Path, written: Option<Toml>)

  /** `load_config`. `files` stands for the existing files and their parsed contents. */
  function LoadConfig(explicit: Option<Path>, variable: Option<string>, files: map<Path, Toml>,
                      expand: string -> Path): (r: Result<Loaded, ConfigError>)
    ensures r.Success? ==> Valid(r.value.config)
    ensures r.Success? ==> r.value.path == explicit.GetOr(GetConfigPath(variable, expand))
    ensures var path := explicit.GetOr(GetConfigPath(variable, expand));
      path !in files ==>
        r == Success(Loaded(DefaultConfig(expand), path, Some(Save(DefaultConfig(expand)))))
    ensures var path := explicit.GetOr(GetConfigPath(variable, expand));
      path in files ==>
        (r.Success? <==> FromToml(files[path], expand).Success?)
        && (r.Success? ==> r.value.config == FromToml(files[path], expand).value && r.value.written == None)
  {
    var path := if explicit.Some? then explicit.value else GetConfigPath(variable, expand);
    if path in files then
      match FromToml(files[path], expand)
      case Success(c) => Success(Loaded(c, path, None))
      case Failure(e) => Failure(e)
    else
      var c := DefaultConfig(expand);
      Success(Loaded(c, path, Some(Save(c))))
  }

  /** An explicit path makes the environment variable irrelevant. */
  lemma ExplicitPathBypassesVariable(p: Path, v1: Option<string>, v2: Option<string>,
                                     files: map<Path, Toml>, expand: string -> Path)
    ensures LoadConfig(Some(p), v1, files, expand) == LoadConfig(Some(p), v2, files, expand)
  {
  }
}

=== FILE: git_url.dfy ===
/** Parsing of the `<repository>[@tag | #branch]` URLs accepted by `install`.

    Only the cases pinned by the repository's tests are claimed as the
    program's behaviour (see the `Test...` lemmas); the general rule below is
    one rule consistent with all of them. */
module GitUrl {
  import opened Wrappers
  import opened Text

  datatype RefKind = Default | Branch | Tag

  /** A repository URL with the reference requested after it. */
  datatype GitRef = GitRef(baseUrl: string, kind: RefKind, value: Option<string>)

  /** Exactly the default kind carries no value. */
  predicate WellFormed(r: GitRef) {
    r.kind == Default <==> r.value.None?
  }

  /** Removes one trailing ".git". */
  function StripDotGit(url: string): (base: string)
    ensures EndsWith(url, ".git") ==> base + ".git" == url
    ensures !EndsWith(url, ".git") ==> base == url
  {
    if EndsWith(url, ".git") then url[..|url| - 4] else url
  }

  /** Text after an '@' that names a tag: no '/' or ':', so the credentials
      of `user@host/path` and SCP-style `git@host:path` are not tags. */
  predicate IsTagName(v: string) {
    '/' !in v && ':' !in v
  }

  /** Whether the URL ends in `@<tag>`. */
  predicate HasTagSuffix(url: string) {
    var a := LastIndexOf(url, '@');
    a >= 0 && IsTagName(url[a + 1..])
  }

  function Parse(url: string): (r: GitRef)
    ensures WellFormed(r)
    ensures r.kind == Branch <==> '#' in url
    ensures r.kind == Tag <==> '#' !in url && HasTagSuffix(url)
    ensures r.kind == Branch ==>
      var v := r.value.value;
      '#' !in v && EndsWith(url, "#" + v) && r.baseUrl == StripDotGit(url[..|url| - |v| - 1])
    ensures r.kind == Tag ==>
      var v := r.value.value;
      '@' !in v && IsTagName(v) && EndsWith(url, "@" + v)
      && r.baseUrl == StripDotGit(url[..|url| - |v| - 1])
    ensures r.kind == Default ==> r.baseUrl == StripDotGit(url)
  {
    var h := LastIndexOf(url, '#');
    if h >= 0 then
      assert url[h..] == "#" + url[h + 1..];
      assert url[..|url| - |url[h + 1..]| - 1] == url[..h];
      GitRef(StripDotGit(url[..h]), Branch, Some(url[h + 1..]))
    else
      var a := LastIndexOf(url, '@');
      if a >= 0 && IsTagName(url[a + 1..]) then
        assert url[a..] == "@" + url[a + 1..];
        assert url[..|url| - |url[a + 1..]| - 1] == url[..a];
        GitRef(StripDotGit(url[..a]), Tag, Some(url[a + 1..]))
      else
        GitRef(StripDotGit(url), Default, None)
  }

  /** A URL with neither suffix names the default branch. */
  lemma ParseWithoutRef(url: string)
    requires '#' !in url && '@' !in url
    ensures Parse(url) == GitRef(StripDotGit(url), Default, None)
  {
  }

  /** `<base>@<tag>` names that tag of `<base>` without its ".git". */
  lemma ParseTag(base: string, tag: string)
    requires '#' !in base && '#' !in tag && '@' !in tag && IsTagName(tag)
    ensures Parse(base + "@" + tag) == GitRef(StripDotGit(base), Tag, Some(tag))
  {
    var url := base + "@" + tag;
    assert url[|base|] == '@';
    assert url[|base| + 1..] == tag;
    assert url[..|base|] == base;
  }

  /** `<base>#<branch>` names that branch of `<base>` without its ".git". */
  lemma ParseBranch(base: string, branch: string)
    requires '#' !in branch
    ensures Parse(base + "#" + branch) == GitRef(StripDotGit(base), Branch, Some(branch))
  {
    var url := base + "#" + branch;
    assert url[|base|] == '#';
    assert url[|base| + 1..] == branch;
    assert url[..|base|] == base;
  }

  lemma TestUrlWithoutRef()
    ensures Parse("https://github.com/user/repo")
         == GitRef("https://github.com/user/repo", Default, None)
  {
    var url := "https://github.com/user/repo";
    assert '#' !in url && '@' !in url by {
    }
    assert StripDotGit(url) == url by {
      assert url[|url| - 1] == 'o';
    }
    ParseWithoutRef(url);
  }

  lemma TestUrlWithTag()
    ensures Parse("https://github.com/user/repo@v1.0.0")
         == GitRef("https://github.com/user/repo", Tag, Some("v1.0.0"))
  {
    var base, tag := "https://github.com/user/repo", "v1.0.0";
    assert '#' !in base && '#' !in tag && '@' !in tag && IsTagName(tag) by {
    }
    assert StripDotGit(base) == base by {
      assert base[|base| - 1] == 'o';
    }
    assert base + "@" + tag == "https://github.com/user/repo@v1.0.0" by {
    }
    ParseTag(base, tag);
  }

  lemma TestUrlWithBranch()
    ensures Parse("https://github.com/user/repo#dev")
         == GitRef("https://github.com/user/repo", Branch, Some("dev"))
  {
    var base, branch := "https://github.com/user/repo", "dev";
    assert '#' !in branch by {
    }
    assert StripDotGit(base) == base by {
      assert base[|base| - 1] == 'o';
    }
    assert base + "#" + branch == "https://github.com/user/repo#dev" by {
    }
    ParseBranch(base, branch);
  }

  lemma TestUrlWithGitExtension()
    ensures Parse("https://github.com/user/repo.git")
         == GitRef("https://github.com/user/repo", Default, None)
  {
    var url := "https://github.com/user/repo.git";
    assert '#' !in url && '@' !in url by {
    }
    assert StripDotGit(url) == "https://github.com/user/repo" by {
      assert EndsWith(url, ".git");
      assert url[..|url| - 4] == "https://github.com/user/repo";
    }
    ParseWithoutRef(url);
  }

  lemma TestUrlWithGitExtensionAndTag()
    ensures Parse("https://github.com/user/repo.git@v1.0.0")
         == GitRef("https://github.com/user/repo", Tag, Some("v1.0.0"))
  {
    var base, tag := "https://github.com/user/repo.git", "v1.0.0";
    assert '#' !in base && '#' !in tag && '@' !in tag && IsTagName(tag) by {
    }
    assert StripDotGit(base) == "https://github.com/user/repo" by {
      assert EndsWith(base, ".git");
      assert base[..|base| - 4] == "https://github.com/user/repo";
    }
    assert base + "@" + tag == "https://github.com/user/repo.git@v1.0.0" by {
    }
    ParseTag(base, tag);
  }
}

=== FILE: migration_base.dfy ===
/** The shape of a schema migration and the target schema version. */
module MigrationBase {
  import opened Wrappers

  /** A TinyDB document of the metadata table; only integer fields occur there. */
  type Doc = map<string, int>

  /** A TinyDB table: document id to document. */
  type Table = map<nat, Doc>

  /** The state database as far as migrations are concerned: the script
      documents (which only migration bodies read or write) and the
      `metadata` table holding the schema version. */
  datatype Db = Db(scripts: map<nat, map<string, string>>, metadata: Table)

  /** The schema version the program expects; raised with every new migration. */
  const CurrentSchemaVersion: int := 2

  /** A migration body: it either transforms the database or raises. */
  type Body = Db -> Result<Db, string>

  /** A migration: its version tag, a description for the progress message, and its body. */
  datatype Migration = Migration(version: int, description: string, migrate: Body)

  /** The version tags of a list of migrations, in list order. */
  function Versions(ms: seq<Migration>): (vs: seq<int>)
    ensures |vs| == |ms|
    ensures forall i :: 0 <= i < |ms| ==> vs[i] == ms[i].version
  {
    if ms == [] then [] else [ms[0].version] + Versions(ms[1..])
  }

  /** Version tags strictly increase along the list. */
  predicate StrictlyAscending(ms: seq<Migration>) {
    forall i, j :: 0 <= i < j < |ms| ==> ms[i].version < ms[j].version
  }
}

=== FILE: migration_registry.dfy ===
/** The ordered registry of migrations. The two bodies (001 adds the
    `source_type` field, 002 adds `copy_parent_dir`) and their descriptions
    are defined in modules that are not part of this model, so they are
    parameters here. */
module MigrationRegistry {
  import opened Wrappers
  import opened MigrationBase
  import opened MigrationRunner

  /** `MIGRATIONS`, in application order. */
  function Registry(addSourceType: Body, addSourceTypeText: string,
                    addCopyParentDir: Body, addCopyParentDirText: string): (ms: seq<Migration>)
    ensures |ms| == CurrentSchemaVersion
    ensures Versions(ms) == [1, 2]
    ensures StrictlyAscending(ms)
    ensures ms[|ms| - 1].version == CurrentSchemaVersion
    ensures forall i :: 0 <= i < |ms| ==> 1 <= ms[i].version <= CurrentSchemaVersion
    ensures ms[0].migrate == addSourceType && ms[1].migrate == addCopyParentDir
  {
    [Migration(1, addSourceTypeText, addSourceType),
     Migration(2, addCopyParentDirText, addCopyParentDir)]
  }

  /** On a store with no recorded version, both migrations run once, in
      order, and the store ends at the target version. */
  lemma FreshStoreAppliesBoth(db: Db, first: Body, firstText: string, second: Body, secondText: string)
    requires GetSchemaVersion(db) == 0
    requires forall d :: first(d).Success?
    requires forall d :: second(d).Success?
    ensures var r := RunMigrations(db, Registry(first, firstText, second, secondText));
      r.failure.None? && r.applied == [1, 2]
      && GetSchemaVersion(r.db) == CurrentSchemaVersion && !NeedsMigration(r.db)
  {
    var ms := Registry(first, firstText, second, secondText);
    var d1 := SetSchemaVersion(first(db).value, 1);
    var d2 := SetSchemaVersion(second(d1).value, 2);
    assert ms[1..][1..] == [];
    assert ApplyPending(d2, ms[1..][1..], 0) == RunOutcome(d2, [], None);
    assert ApplyPending(d1, ms[1..], 0) == RunOutcome(d2, [2], None);
    assert ApplyPending(db, ms, 0) == RunOutcome(d2, [1, 2], None);
  }

  /** On a store at version 1 only the second migration runs. */
  lemma VersionOneAppliesOnlySecond(db: Db, first: Body, firstText: string, second: Body, secondText: string)
    requires GetSchemaVersion(db) == 1
    requires forall d :: second(d).Success?
    ensures var r := RunMigrations(db, Registry(first, firstText, second, secondText));
      r.failure.None? && r.applied == [2] && GetSchemaVersion(r.db) == CurrentSchemaVersion
  {
    var ms := Registry(first, firstText, second, secondText);
    var d2 := SetSchemaVersion(second(db).value, 2);
    assert ms[1..][1..] == [];
    assert ApplyPending(d2, ms[1..][1..], 1) == RunOutcome(d2, [], None);
    assert ApplyPending(db, ms[1..], 1) == RunOutcome(d2, [2], None);
  }

  /** `needs_migration` answers whether a run over the registry would do
      anything: when it holds, the next pending migration is at least
      attempted; when it does not, a run changes nothing. */
  lemma NeedsMigrationIffWorkPending(db: Db, first: Body, firstText: string, second: Body, secondText: string)
    ensures var r := RunMigrations(db, Registry(first, firstText, second, secondText));
      NeedsMigration(db) <==> r.applied != [] || r.failure.Some?
    ensures var r := RunMigrations(db, Registry(first, firstText, second, secondText));
      !NeedsMigration(db) ==> r == RunOutcome(db, [], None)
  {
    var ms := Registry(first, firstText, second, secondText);
    var v := GetSchemaVersion(db);
    if v < CurrentSchemaVersion {
      var pending := PendingVersions(ms, v);
      if v < 1 {
        assert pending == [1] + PendingVersions(ms[1..], v);
      } else {
        assert pending == PendingVersions(ms[1..], v);
        assert PendingVersions(ms[1..], v) == [2] + PendingVersions(ms[1..][1..], v);
      }
      assert pending != [];
    }
  }
}

=== FILE: migration_runner.dfy ===
/** The migration runner: reads the schema version from the metadata table
    and applies, in list order, every migration newer than it, recording the
    new version after each one and stopping at the first failure. */
module MigrationRunner {
  import opened Wrappers
  import opened MigrationBase

  /** The field of the metadata document that holds the version. */
  const SchemaKey: string := "schema_version"

  /** The fixed id of the one metadata document. */
  const MetadataId: nat := 1

  /** The stored schema version; 0 when document 1 is missing, empty or has
      no version field. */
  function GetSchemaVersion(db: Db): (v: int)
    ensures MetadataId in db.metadata && SchemaKey in db.metadata[MetadataId] ==>
      v == db.metadata[MetadataId][SchemaKey]
    ensures !(MetadataId in db.metadata && SchemaKey in db.metadata[MetadataId]) ==> v == 0
  {
    if MetadataId in db.metadata && db.metadata[MetadataId] != map[] then
      var doc := db.metadata[MetadataId];
      if SchemaKey in doc then doc[SchemaKey] else 0
    else 0
  }

  /** The largest id of a non-empty table. */
  ghost function LargestId(ids: set<nat>): (m: nat)
    requires ids != {}
    ensures m in ids && forall k :: k in ids ==> k <= m
  {
    var x :| x in ids;
    if ids == {x} then x
    else
      var y := LargestId(ids - {x});
      assert forall k :: k in ids ==> k == x || k in ids - {x};
      if x > y then x else y
  }

  /** The id TinyDB gives an inserted document: one past the largest id, 1 in an empty table. */
  ghost function InsertId(t: Table): (id: nat)
    ensures id !in t && id >= 1
    ensures t == map[] ==> id == MetadataId
  {
    if t == map[] then 1 else LargestId(t.Keys) + 1
  }

  /** `set_schema_version` as the code is written: it updates document 1 only
      when `metadata.get(doc_id=1)` is truthy, that is present and non-empty,
      and otherwise inserts a fresh document under a new id. */
  ghost function SetSchemaVersionAsWritten(db: Db, version: int): (r: Db)
    ensures r.scripts == db.scripts
    ensures (MetadataId in db.metadata && db.metadata[MetadataId] != map[]) || db.metadata == map[] ==>
      GetSchemaVersion(r) == version
  {
    if MetadataId in db.metadata && db.metadata[MetadataId] != map[] then
      db.(metadata := db.metadata[MetadataId := db.metadata[MetadataId][SchemaKey := version]])
    else
      db.(metadata := db.metadata[InsertId(db.metadata) := map[SchemaKey := version]])
  }

  /** Whenever the metadata table is non-empty (its ids start at 1, as
      TinyDB's do) but document 1 is missing or empty, the version written
      as above is never read back. */
  lemma AsWrittenLosesVersion(db: Db, version: int)
    requires forall id :: id in db.metadata ==> id >= MetadataId
    requires db.metadata != map[]
    requires !(MetadataId in db.metadata && db.metadata[MetadataId] != map[])
    ensures GetSchemaVersion(SetSchemaVersionAsWritten(db, version)) == 0
  {
  }

  /** With an empty document 1 the version written as above is never read back:
      the runner would see version 0 again and re-apply every migration. */
  lemma AsWrittenLosesVersionOnEmptyDoc()
    ensures var db := Db(map[], map[MetadataId := map[]]);
      GetSchemaVersion(SetSchemaVersionAsWritten(db, 2)) == 0
  {
    var db := Db(map[], map[MetadataId := map[]]);
    var r := SetSchemaVersionAsWritten(db, 2);
    assert r.metadata[MetadataId] == map[];
  }

  /** The same happens when document 1 is missing but other documents exist. */
  lemma AsWrittenLosesVersionWithoutDocOne()
    ensures var db := Db(map[], map[2 := map[SchemaKey := 7]]);
      GetSchemaVersion(SetSchemaVersionAsWritten(db, 2)) == 0
  {
    var db := Db(map[], map[2 := map[SchemaKey := 7]]);
    var r := SetSchemaVersionAsWritten(db, 2);
    assert db.metadata.Keys == {2};
    assert InsertId(db.metadata) == 3;
    assert MetadataId !in r.metadata;
  }

  /** `set_schema_version` as intended: the version lands in document 1,
      updated in place when present and created otherwise. */
  function SetSchemaVersion(db: Db, version: int): (r: Db)
    ensures GetSchemaVersion(r) == version
    ensures r.scripts == db.scripts
    ensures r.metadata.Keys == db.metadata.Keys + {MetadataId}
    ensures forall id :: id in db.metadata && id != MetadataId ==> r.metadata[id] == db.metadata[id]
    ensures MetadataId in db.metadata ==>
      forall k :: k in db.metadata[MetadataId] && k != SchemaKey ==>
        k in r.metadata[MetadataId] && r.metadata[MetadataId][k] == db.metadata[MetadataId][k]
  {
    var doc := if MetadataId in db.metadata then db.metadata[MetadataId] else map[];
    db.(metadata := db.metadata[MetadataId := doc[SchemaKey := version]])
  }

  /** Where the code as written and the intended version agree: document 1
      present and non-empty, or an empty metadata table. */
  lemma AsWrittenAgreesInTheUsualCases(db: Db, version: int)
    requires (MetadataId in db.metadata && db.metadata[MetadataId] != map[]) || db.metadata == map[]
    ensures SetSchemaVersionAsWritten(db, version) == SetSchemaVersion(db, version)
  {
  }

  /** Migrations are pending exactly when the stored version is below the target. */
  function NeedsMigration(db: Db): bool {
    GetSchemaVersion(db) < CurrentSchemaVersion
  }

  /** The versions the loop will try, in list order: those above `start`.
      That these are all of the registered ones above `start`, and ascending
      for an ascending registry, is stated by the two lemmas below. */
  function PendingVersions(ms: seq<Migration>, start: int): (vs: seq<int>)
    ensures forall v :: v in vs ==> v > start && v in Versions(ms)
  {
    if ms == [] then []
    else if ms[0].version > start then [ms[0].version] + PendingVersions(ms[1..], start)
    else PendingVersions(ms[1..], start)
  }

  /** Every registered version above `start` is tried. */
  lemma {:induction false} PendingComplete(ms: seq<Migration>, start: int)
    ensures forall i :: 0 <= i < |ms| && ms[i].version > start ==> ms[i].version in PendingVersions(ms, start)
  {
    if ms != [] {
      PendingComplete(ms[1..], start);
      forall i | 1 <= i < |ms| && ms[i].version > start
        ensures ms[i].version in PendingVersions(ms, start)
      {
        assert ms[i] == ms[1..][i - 1];
      }
    }
  }

  /** In an ascending registry the tried versions strictly increase. */
  lemma {:induction false} PendingAscending(ms: seq<Migration>, start: int)
    requires StrictlyAscending(ms)
    ensures forall i, j :: 0 <= i < j < |PendingVersions(ms, start)| ==>
      PendingVersions(ms, start)[i] < PendingVersions(ms, start)[j]
  {
    if ms != [] {
      var tail := ms[1..];
      assert StrictlyAscending(tail);
      PendingAscending(tail, start);
      var rest := PendingVersions(tail, start);
      forall v | v in rest
        ensures v > ms[0].version
      {
        var k :| 0 <= k < |tail| && Versions(tail)[k] == v;
        assert tail[k] == ms[k + 1];
      }
      if ms[0].version > start {
        var vs := [ms[0].version] + rest;
        assert PendingVersions(ms, start) == vs;
        forall i, j | 0 <= i < j < |vs|
          ensures vs[i] < vs[j]
        {
          if i > 0 {
            assert vs[i] == rest[i - 1] && vs[j] == rest[j - 1];
            assert rest[i - 1] < rest[j - 1];
          } else {
            assert vs[j] == rest[j - 1] && vs[j] in rest;
          }
        }
      } else {
        assert PendingVersions(ms, start) == rest;
      }
    }
  }

  /** Every body of the list succeeds on every database. */
  ghost predicate NeverFails(ms: seq<Migration>) {
    forall i :: 0 <= i < |ms| ==> forall d :: ms[i].migrate(d).Success?
  }

  /** The error re-raised from a migration body, with the migration it came from. */
  datatype MigrationError = MigrationError(version: int, description: string, error: string)

  /** The database after a run, the versions applied, and the failure that stopped it, if any. */
  datatype RunOutcome = RunOutcome(db: Db, applied: seq<int>, failure: Option<MigrationError>)

  /** The loop of `run_migrations` over the migrations newer than `start`:
      each pending body runs on the database the previous one left, with the
      version recorded after it; the first body that raises stops the loop. */
  function ApplyPending(db: Db, ms: seq<Migration>, start: int): (r: RunOutcome)
    ensures r.failure.None? ==> r.applied == PendingVersions(ms, start)
    ensures r.failure.Some? ==> r.applied + [r.failure.value.version] <= PendingVersions(ms, start)
    ensures r.applied == [] ==> r.db == db
    ensures r.applied != [] ==> GetSchemaVersion(r.db) == r.applied[|r.applied| - 1]
    decreases |ms|
  {
    if ms == [] then RunOutcome(db, [], None)
    else
      var m := ms[0];
      if m.version <= start then ApplyPending(db, ms[1..], start)
      else
        match m.migrate(db)
        case Failure(e) => RunOutcome(db, [], Some(MigrationError(m.version, m.description, e)))
        case Success(migrated) =>
          var rest := ApplyPending(SetSchemaVersion(migrated, m.version), ms[1..], start);
          RunOutcome(rest.db, [m.version] + rest.applied, rest.failure)
  }

  /** A reported failure is the error a registered body raised, on the
      database the migrations before it left. */
  lemma {:induction false} FailureIsRaised(db: Db, ms: seq<Migration>, start: int)
    ensures var r := ApplyPending(db, ms, start);
      r.failure.Some? ==>
        exists i :: 0 <= i < |ms| && ms[i].version == r.failure.value.version
          && ms[i].description == r.failure.value.description
          && ms[i].migrate(r.db) == Failure(r.failure.value.error)
    decreases |ms|
  {
    if ms != [] {
      var m := ms[0];
      var r := ApplyPending(db, ms, start);
      if m.version <= start {
        FailureIsRaised(db, ms[1..], start);
        if r.failure.Some? {
          var i :| 0 <= i < |ms[1..]| && ms[1..][i].version == r.failure.value.version
            && ms[1..][i].description == r.failure.value.description
            && ms[1..][i].migrate(r.db) == Failure(r.failure.value.error);
          assert ms[i + 1] == ms[1..][i];
        }
      } else if m.migrate(db).Success? {
        var stored := SetSchemaVersion(m.migrate(db).value, m.version);
        FailureIsRaised(stored, ms[1..], start);
        var rest := ApplyPending(stored, ms[1..], start);
        assert r.failure == rest.failure && r.db == rest.db;
        if r.failure.Some? {
          var i :| 0 <= i < |ms[1..]| && ms[1..][i].version == r.failure.value.version
            && ms[1..][i].description == r.failure.value.description
            && ms[1..][i].migrate(r.db) == Failure(r.failure.value.error);
          assert ms[i + 1] == ms[1..][i];
        }
      } else {
        assert ms[0].migrate(r.db) == Failure(r.failure.value.error);
      }
    }
  }

  /** When no body can fail, no run reports a failure. */
  lemma {:induction false} NoFailureWithoutRaise(db: Db, ms: seq<Migration>, start: int)
    requires NeverFails(ms)
    ensures ApplyPending(db, ms, start).failure.None?
    decreases |ms|
  {
    if ms != [] {
      assert forall i :: 1 <= i < |ms| ==> ms[i] == ms[1..][i - 1];
      assert NeverFails(ms[1..]);
      assert ms[0].migrate(db).Success?;
      NoFailureWithoutRaise(db, ms[1..], start);
      if ms[0].version > start {
        NoFailureWithoutRaise(SetSchemaVersion(ms[0].migrate(db).value, ms[0].version), ms[1..], start);
      }
    }
  }

  /** `after` is what the body of a migration of version `v` in `ms`
      produced on some database (which one is not said here), with `v` then
      recorded. */
  ghost predicate ProducedBy(ms: seq<Migration>, v: int, after: Db) {
    exists i, d :: 0 <= i < |ms| && ms[i].version == v
      && ms[i].migrate(d).Success? && after == SetSchemaVersion(ms[i].migrate(d).value, v)
  }

  /** A migration of the tail is a migration of the whole list. */
  lemma ProducedByTail(ms: seq<Migration>, v: int, after: Db)
    requires ms != [] && ProducedBy(ms[1..], v, after)
    ensures ProducedBy(ms, v, after)
  {
    var i, d :| 0 <= i < |ms[1..]| && ms[1..][i].version == v
      && ms[1..][i].migrate(d).Success? && after == SetSchemaVersion(ms[1..][i].migrate(d).value, v);
    assert ms[i + 1] == ms[1..][i];
  }

  /** After at least one migration, the database is what the body of the
      last applied one produced on some database, with that version recorded. */
  lemma {:induction false} LastAppliedIsStored(db: Db, ms: seq<Migration>, start: int)
    ensures var r := ApplyPending(db, ms, start);
      r.applied != [] ==> ProducedBy(ms, r.applied[|r.applied| - 1], r.db)
    decreases |ms|
  {
    if ms != [] {
      var m := ms[0];
      var r := ApplyPending(db, ms, start);
      if m.version <= start {
        LastAppliedIsStored(db, ms[1..], start);
        if r.applied != [] {
          ProducedByTail(ms, r.applied[|r.applied| - 1], r.db);
        }
      } else if m.migrate(db).Success? {
        var stored := SetSchemaVersion(m.migrate(db).value, m.version);
        var rest := ApplyPending(stored, ms[1..], start);
        assert r.applied == [m.version] + rest.applied && r.db == rest.db;
        if rest.applied == [] {
          assert ProducedBy(ms, m.version, stored) by {
            assert 0 < |ms| && ms[0].version == m.version && ms[0].migrate(db).Success?;
          }
        } else {
          LastAppliedIsStored(stored, ms[1..], start);
          assert r.applied[|r.applied| - 1] == rest.applied[|rest.applied| - 1];
          ProducedByTail(ms, rest.applied[|rest.applied| - 1], rest.db);
        }
      }
    }
  }

  /** A pending body that raises on every database stops the loop: the run
      reports a failure no later than that migration, and neither it nor
      anything after it is applied. */
  lemma RaisingBodyStopsRun(db: Db, ms: seq<Migration>, start: int, i: int)
    requires StrictlyAscending(ms)
    requires 0 <= i < |ms| && ms[i].version > start
    requires forall d :: ms[i].migrate(d).Failure?
    ensures var r := ApplyPending(db, ms, start);
      && r.failure.Some?
      && r.failure.value.version <= ms[i].version
      && ms[i].version !in r.applied
      && forall v :: v in r.applied ==> v < ms[i].version
  {
    var r := ApplyPending(db, ms, start);
    RaisingBodyFails(db, ms, start, i);
    PendingAscending(ms, start);
    var pending := PendingVersions(ms, start);
    var n := |r.applied|;
    assert n < |pending| && pending[n] == r.failure.value.version by {
      assert (r.applied + [r.failure.value.version])[n] == r.failure.value.version;
    }
    forall v | v in r.applied
      ensures v < ms[i].version
    {
      var k :| 0 <= k < n && r.applied[k] == v;
      assert (r.applied + [r.failure.value.version])[k] == v;
      assert pending[k] < pending[n];
    }
  }

  /** The inductive part of `RaisingBodyStopsRun`: the loop stops with a
      failure at or before the raising migration. */
  lemma {:induction false} RaisingBodyFails(db: Db, ms: seq<Migration>, start: int, i: int)
    requires StrictlyAscending(ms)
    requires 0 <= i < |ms| && ms[i].version > start
    requires forall d :: ms[i].migrate(d).Failure?
    ensures var r := ApplyPending(db, ms, start);
      r.failure.Some? && r.failure.value.version <= ms[i].version
    decreases |ms|
  {
    var m := ms[0];
    if i > 0 {
      var tail := ms[1..];
      assert tail[i - 1] == ms[i];
      assert StrictlyAscending(tail) by {
        forall a, b | 0 <= a < b < |tail|
          ensures tail[a].version < tail[b].version
        {
          assert tail[a] == ms[a + 1] && tail[b] == ms[b + 1];
        }
      }
      if m.version <= start {
        RaisingBodyFails(db, tail, start, i - 1);
      } else if m.migrate(db).Success? {
        RaisingBodyFails(SetSchemaVersion(m.migrate(db).value, m.version), tail, start, i - 1);
      }
    } else {
      assert m.migrate(db).Failure?;
    }
  }

  /** When the first pending migration raises on the database it is given,
      the loop stops there: nothing is applied, the database is untouched,
      and that error is re-raised with the migration's version and description. */
  lemma {:induction false} FirstPendingRaises(db: Db, ms: seq<Migration>, start: int, k: int)
    requires 0 <= k < |ms| && ms[k].version > start
    requires forall j :: 0 <= j < k ==> ms[j].version <= start
    requires ms[k].migrate(db).Failure?
    ensures ApplyPending(db, ms, start)
         == RunOutcome(db, [], Some(MigrationError(ms[k].version, ms[k].description, ms[k].migrate(db).error)))
    decreases k
  {
    if k > 0 {
      assert ms[1..][k - 1] == ms[k];
      assert forall j :: 0 <= j < k - 1 ==> ms[1..][j] == ms[j + 1];
      FirstPendingRaises(db, ms[1..], start, k - 1);
    }
  }

  /** A run that first applied `v`. */
  function Prepend(v: int, r: RunOutcome): RunOutcome {
    RunOutcome(r.db, [v] + r.applied, r.failure)
  }

  /** A run `r1` followed, unless it stopped at a failure, by the loop over
      `ms2` on the database it left. */
  function Continue(r1: RunOutcome, ms2: seq<Migration>, start: int): RunOutcome {
    if r1.failure.Some? then r1
    else
      var r2 := ApplyPending(r1.db, ms2, start);
      RunOutcome(r2.db, r1.applied + r2.applied, r2.failure)
  }

  /** Continuing a run that first applied `v` is continuing the rest of it
      and then putting `v` in front. */
  lemma ContinuePrepend(v: int, r: RunOutcome, ms2: seq<Migration>, start: int)
    ensures Continue(Prepend(v, r), ms2, start) == Prepend(v, Continue(r, ms2, start))
  {
    if r.failure.None? {
      var r2 := ApplyPending(r.db, ms2, start);
      assert [v] + (r.applied + r2.applied) == ([v] + r.applied) + r2.applied;
    }
  }

  /** One applied step of the loop: the first migration is pending and its
      body succeeds, so its version is recorded and the loop goes on with
      the rest. */
  lemma AppliedStep(db: Db, ms: seq<Migration>, start: int)
    requires ms != [] && ms[0].version > start && ms[0].migrate(db).Success?
    ensures ApplyPending(db, ms, start)
         == Prepend(ms[0].version, ApplyPending(SetSchemaVersion(ms[0].migrate(db).value, ms[0].version), ms[1..], start))
  {
  }

  /** The loop over a concatenation is the loop over the first part,
      continued over the second. */
  lemma {:induction false} ApplyPendingConcat(db: Db, ms1: seq<Migration>, ms2: seq<Migration>, start: int)
    ensures ApplyPending(db, ms1 + ms2, start) == Continue(ApplyPending(db, ms1, start), ms2, start)
    decreases |ms1|
  {
    if ms1 == [] {
      assert ms1 + ms2 == ms2;
    } else {
      var m := ms1[0];
      assert (ms1 + ms2)[0] == m && (ms1 + ms2)[1..] == ms1[1..] + ms2;
      if m.version <= start {
        ApplyPendingConcat(db, ms1[1..], ms2, start);
      } else if m.migrate(db).Success? {
        var stored := SetSchemaVersion(m.migrate(db).value, m.version);
        ApplyPendingConcat(stored, ms1[1..], ms2, start);
        AppliedStep(db, ms1, start);
        AppliedStep(db, ms1 + ms2, start);
        ContinuePrepend(m.version, ApplyPending(stored, ms1[1..], start), ms2, start);
      }
    }
  }

  /** The loop over `ms1 + ms2` is the loop over `ms1` followed, unless that
      stopped at a failure, by the loop over `ms2` on the database `ms1`
      left. */
  lemma ApplyPendingSplit(db: Db, ms1: seq<Migration>, ms2: seq<Migration>, start: int)
    ensures var r1 := ApplyPending(db, ms1, start);
      var r := ApplyPending(db, ms1 + ms2, start);
      && (r1.failure.Some? ==> r == r1)
      && (r1.failure.None? ==>
            var r2 := ApplyPending(r1.db, ms2, start);
            r == RunOutcome(r2.db, r1.applied + r2.applied, r2.failure))
  {
    ApplyPendingConcat(db, ms1, ms2, start);
  }

  /** The first pending migration to raise stops the run: when the
      migrations before position `k` ran without a failure and the body at
      `k`, which is pending, raises on the database they left, the run
      reports exactly the earlier versions as applied, leaves their
      database, and re-raises that error. */
  lemma RaiseAfterPrefixStops(db: Db, ms: seq<Migration>, start: int, k: int)
    requires 0 <= k < |ms| && ms[k].version > start
    requires ApplyPending(db, ms[..k], start).failure.None?
    requires ms[k].migrate(ApplyPending(db, ms[..k], start).db).Failure?
    ensures var r1 := ApplyPending(db, ms[..k], start);
      ApplyPending(db, ms, start)
        == RunOutcome(r1.db, r1.applied,
                      Some(MigrationError(ms[k].version, ms[k].description, ms[k].migrate(r1.db).error)))
  {
    var r1 := ApplyPending(db, ms[..k], start);
    assert ms[..k] + ms[k..] == ms;
    ApplyPendingSplit(db, ms[..k], ms[k..], start);
    assert ms[k..][0] == ms[k];
    FirstPendingRaises(r1.db, ms[k..], start, 0);
    assert r1.applied + [] == r1.applied;
  }

  /** `run_migrations`: nothing when already at the target version; otherwise
      every pending migration in order, up to the first failure. */
  function RunMigrations(db: Db, ms: seq<Migration>): (r: RunOutcome)
    ensures GetSchemaVersion(db) >= CurrentSchemaVersion ==> r == RunOutcome(db, [], None)
    ensures GetSchemaVersion(db) < CurrentSchemaVersion && r.failure.None? ==>
      r.applied == PendingVersions(ms, GetSchemaVersion(db))
    ensures GetSchemaVersion(db) < CurrentSchemaVersion && r.failure.Some? ==>
      r.applied + [r.failure.value.version] <= PendingVersions(ms, GetSchemaVersion(db))
    ensures r.applied == [] ==> r.db == db
    ensures r.applied != [] ==> GetSchemaVersion(r.db) == r.applied[|r.applied| - 1]
    ensures r.failure.Some? ==>
      exists i :: 0 <= i < |ms| && ms[i].version == r.failure.value.version
        && ms[i].migrate(r.db) == Failure(r.failure.value.error)
    ensures NeverFails(ms) ==> r.failure.None?
  {
    var current := GetSchemaVersion(db);
    if current >= CurrentSchemaVersion then RunOutcome(db, [], None)
    else
      FailureIsRaised(db, ms, current);
      assert NeverFails(ms) ==> ApplyPending(db, ms, current).failure.None? by {
        if NeverFails(ms) {
          NoFailureWithoutRaise(db, ms, current);
        }
      }
      ApplyPending(db, ms, current)
  }

  /** The same for a whole run: when migrations are pending, a pending
      body that always raises is reported, and it and everything after it
      stay unapplied. */
  lemma RunRaisingBodyStops(db: Db, ms: seq<Migration>, i: int)
    requires StrictlyAscending(ms)
    requires GetSchemaVersion(db) < CurrentSchemaVersion
    requires 0 <= i < |ms| && ms[i].version > GetSchemaVersion(db)
    requires forall d :: ms[i].migrate(d).Failure?
    ensures var r := RunMigrations(db, ms);
      && r.failure.Some?
      && r.failure.value.version <= ms[i].version
      && ms[i].version !in r.applied
      && forall v :: v in r.applied ==> v < ms[i].version
  {
    RaisingBodyStopsRun(db, ms, GetSchemaVersion(db), i);
  }

  /** The same for a whole run: below the target version, the first
      migration above the stored version to raise on the database the
      earlier ones left ends the run with its error. */
  lemma RunRaiseAfterPrefixStops(db: Db, ms: seq<Migration>, k: int)
    requires GetSchemaVersion(db) < CurrentSchemaVersion
    requires 0 <= k < |ms| && ms[k].version > GetSchemaVersion(db)
    requires ApplyPending(db, ms[..k], GetSchemaVersion(db)).failure.None?
    requires ms[k].migrate(ApplyPending(db, ms[..k], GetSchemaVersion(db)).db).Failure?
    ensures var r1 := ApplyPending(db, ms[..k], GetSchemaVersion(db));
      RunMigrations(db, ms)
        == RunOutcome(r1.db, r1.applied,
                      Some(MigrationError(ms[k].version, ms[k].description, ms[k].migrate(r1.db).error)))
  {
    RaiseAfterPrefixStops(db, ms, GetSchemaVersion(db), k);
  }

  /** A whole run over `ms1 + ms2`, below the target version: the loop over
      `ms1` from the stored version, then, unless that failed, the loop over
      `ms2` from the same stored version. */
  lemma RunMigrationsSplit(db: Db, ms1: seq<Migration>, ms2: seq<Migration>)
    requires GetSchemaVersion(db) < CurrentSchemaVersion
    ensures var start := GetSchemaVersion(db);
      var r1 := RunMigrations(db, ms1);
      var r := RunMigrations(db, ms1 + ms2);
      && (r1.failure.Some? ==> r == r1)
      && (r1.failure.None? ==>
            var r2 := ApplyPending(r1.db, ms2, start);
            r == RunOutcome(r2.db, r1.applied + r2.applied, r2.failure))
  {
    ApplyPendingSplit(db, ms1, ms2, GetSchemaVersion(db));
  }

  /** A run never lowers the stored version. */
  lemma VersionNeverDecreases(db: Db, ms: seq<Migration>)
    ensures GetSchemaVersion(RunMigrations(db, ms).db) >= GetSchemaVersion(db)
  {
    var r := RunMigrations(db, ms);
    var start := GetSchemaVersion(db);
    if r.applied != [] {
      var last := r.applied[|r.applied| - 1];
      var pending := PendingVersions(ms, start);
      if r.failure.None? {
        assert last in pending;
      } else {
        assert (r.applied + [r.failure.value.version])[|r.applied| - 1] == last;
        assert last in pending;
      }
    }
  }

  /** When every migration is newer than `start`, all of them are pending. */
  lemma {:induction false} AllPending(ms: seq<Migration>, start: int)
    requires forall i :: 0 <= i < |ms| ==> ms[i].version > start
    ensures PendingVersions(ms, start) == Versions(ms)
  {
    if ms != [] {
      AllPending(ms[1..], start);
    }
  }

  /** In an ascending registry whose first migration is pending, the
      migrations pending after it are the rest of the pending list. */
  lemma PendingAfterHead(ms: seq<Migration>, start: int)
    requires StrictlyAscending(ms) && ms != [] && ms[0].version > start
    ensures PendingVersions(ms, ms[0].version) == PendingVersions(ms, start)[1..]
  {
    var tail := ms[1..];
    var v0 := ms[0].version;
    forall i | 0 <= i < |tail|
      ensures tail[i].version > v0
    {
      assert tail[i] == ms[i + 1];
    }
    AllPending(tail, v0);
    AllPending(tail, start);
  }

  /** In an ascending registry, the migrations pending after the k-th pending
      one are exactly the rest of the pending list. */
  lemma {:induction false} PendingAfter(ms: seq<Migration>, start: int, k: nat)
    requires StrictlyAscending(ms)
    requires 0 < k <= |PendingVersions(ms, start)|
    ensures PendingVersions(ms, PendingVersions(ms, start)[k - 1]) == PendingVersions(ms, start)[k..]
    decreases |ms|, 1
  {
    assert ms != [];
    assert StrictlyAscending(ms[1..]);
    if ms[0].version <= start {
      assert PendingVersions(ms, start)[k - 1] in PendingVersions(ms, start);
      PendingAfter(ms[1..], start, k);
    } else if k == 1 {
      PendingAfterHead(ms, start);
    } else {
      PendingAfterLater(ms, start, k);
    }
  }

  /** The case of `PendingAfter` where the first migration is pending and
      the k-th pending one comes after it. */
  lemma {:induction false} PendingAfterLater(ms: seq<Migration>, start: int, k: nat)
    requires StrictlyAscending(ms) && ms != [] && ms[0].version > start
    requires 1 < k <= |PendingVersions(ms, start)|
    ensures PendingVersions(ms, PendingVersions(ms, start)[k - 1]) == PendingVersions(ms, start)[k..]
    decreases |ms|, 0
  {
    var tail := ms[1..];
    var p := PendingVersions(ms, start);
    var q := PendingVersions(tail, start);
    assert p == [ms[0].version] + q;
    var x := q[k - 2];
    assert p[k - 1] == x && p[k..] == q[k - 1..];
    assert x > ms[0].version by {
      assert x in q;
      LaterVersionsAboveFirst(ms);
    }
    assert StrictlyAscending(tail) by {
      forall i, j | 0 <= i < j < |tail|
        ensures tail[i].version < tail[j].version
      {
        assert tail[i] == ms[i + 1] && tail[j] == ms[j + 1];
      }
    }
    PendingAfter(tail, start, k - 1);
  }

  /** In a strictly ascending list, every version after the first is above it. */
  lemma LaterVersionsAboveFirst(ms: seq<Migration>)
    requires StrictlyAscending(ms) && ms != []
    ensures forall v :: v in Versions(ms[1..]) ==> v > ms[0].version
  {
    forall v | v in Versions(ms[1..])
      ensures v > ms[0].version
    {
      var i :| 0 <= i < |ms[1..]| && Versions(ms[1..])[i] == v;
      assert ms[1..][i] == ms[i + 1];
    }
  }

  /** Idempotence: after a successful run over an ascending registry, running
      again applies nothing and leaves the database as it is. */
  lemma RerunIsNoOp(db: Db, ms: seq<Migration>)
    requires StrictlyAscending(ms)
    requires RunMigrations(db, ms).failure.None?
    ensures var r := RunMigrations(db, ms);
      RunMigrations(r.db, ms) == RunOutcome(r.db, [], None)
  {
    var r := RunMigrations(db, ms);
    var start := GetSchemaVersion(db);
    if start < CurrentSchemaVersion && r.applied != [] {
      var p := PendingVersions(ms, start);
      assert r.applied == p;
      PendingAfter(ms, start, |p|);
      assert PendingVersions(ms, GetSchemaVersion(r.db)) == [];
    }
  }

  /** Where a failed run over an ascending registry whose versions do not
      exceed the target leaves the store: below the target, with the failed
      migration and those after it still pending. */
  lemma StateAfterFailure(db: Db, ms: seq<Migration>)
    requires StrictlyAscending(ms)
    requires forall i :: 0 <= i < |ms| ==> ms[i].version <= CurrentSchemaVersion
    requires GetSchemaVersion(db) < CurrentSchemaVersion
    requires RunMigrations(db, ms).failure.Some?
    ensures var r := RunMigrations(db, ms);
      var pending := PendingVersions(ms, GetSchemaVersion(db));
      |r.applied| < |pending|
      && pending[|r.applied|] == r.failure.value.version
      && PendingVersions(ms, GetSchemaVersion(r.db)) == pending[|r.applied|..]
      && GetSchemaVersion(r.db) < CurrentSchemaVersion
  {
    var start := GetSchemaVersion(db);
    var r := ApplyPending(db, ms, start);
    assert RunMigrations(db, ms) == r;
    var p := PendingVersions(ms, start);
    FailurePosition(db, ms, start);
    var failed := r.failure.value.version;
    assert failed <= CurrentSchemaVersion by {
      assert failed in p;
      var k :| 0 <= k < |ms| && Versions(ms)[k] == failed;
    }
    assert PendingVersions(ms, GetSchemaVersion(r.db)) == p[|r.applied|..]
        && GetSchemaVersion(r.db) < failed by {
      if r.applied != [] {
        PendingAfter(ms, start, |r.applied|);
        PendingAscending(ms, start);
        assert GetSchemaVersion(r.db) == p[|r.applied| - 1] < p[|r.applied|];
      } else {
        assert r.db == db && p[0] == failed && failed in p;
        assert p[0..] == p;
      }
    }
  }

  /** A stopped loop failed at the pending version right after the applied
      ones, and the last applied one is the pending version before it. */
  lemma FailurePosition(db: Db, ms: seq<Migration>, start: int)
    requires ApplyPending(db, ms, start).failure.Some?
    ensures var r := ApplyPending(db, ms, start);
      var p := PendingVersions(ms, start);
      && |r.applied| < |p|
      && p[|r.applied|] == r.failure.value.version
      && (r.applied != [] ==> r.applied[|r.applied| - 1] == p[|r.applied| - 1])
  {
    var r := ApplyPending(db, ms, start);
    var p := PendingVersions(ms, start);
    var tried := r.applied + [r.failure.value.version];
    assert tried <= p;
    assert tried[|r.applied|] == p[|r.applied|];
    if r.applied != [] {
      assert r.applied[|r.applied| - 1] == tried[|r.applied| - 1] == p[|r.applied| - 1];
    }
  }

  /** Resumability: after a failed run over an ascending registry whose
      versions do not exceed the target, the next run starts at the failed
      migration and tries the pending ones from there on, and none that
      already succeeded. */
  lemma ResumeAfterFailure(db: Db, ms: seq<Migration>)
    requires StrictlyAscending(ms)
    requires forall i :: 0 <= i < |ms| ==> ms[i].version <= CurrentSchemaVersion
    requires GetSchemaVersion(db) < CurrentSchemaVersion
    requires RunMigrations(db, ms).failure.Some?
    ensures var r := RunMigrations(db, ms);
      var pending := PendingVersions(ms, GetSchemaVersion(db));
      |r.applied| < |pending|
      && pending[|r.applied|] == r.failure.value.version
      && PendingVersions(ms, GetSchemaVersion(r.db)) == pending[|r.applied|..]
      && GetSchemaVersion(r.db) < CurrentSchemaVersion
    ensures var r := RunMigrations(db, ms);
      var pending := PendingVersions(ms, GetSchemaVersion(db));
      var next := RunMigrations(r.db, ms);
      && (next.failure.None? ==> next.applied == pending[|r.applied|..])
      && (next.failure.Some? ==> next.applied + [next.failure.value.version] <= pending[|r.applied|..])
  {
    StateAfterFailure(db, ms);
  }
}

=== FILE: paths.dfy ===
/** Filesystem paths as their string form, with the two pathlib operations the
    program relies on: `dir / name` and `path.name`. Paths are assumed to be
    normalised (no trailing slash, no `..`), as pathlib keeps them. */
module Paths {
  import opened Text

  type Path = string

  /** `dir / name` as pathlib joins: an absolute name replaces the
      directory, an empty one leaves it as it is, and any other name is
      appended after a '/'. */
  function Child(dir: Path, name: string): Path {
    if name == [] then dir
    else if name[0] == '/' then name
    else dir + "/" + name
  }

  /** A name that is neither empty nor absolute lands inside the directory. */
  predicate Relative(name: string) {
    name != [] && name[0] != '/'
  }

  /** `path.name`: the final component, i.e. the longest suffix without '/'. */
  function Name(p: Path): (n: string)
    ensures '/' !in n
    ensures EndsWith(p, n)
    ensures |n| < |p| ==> p[|p| - |n| - 1] == '/'
  {
    var i := LastIndexOf(p, '/');
    assert p[i + 1..] == p[|p| - |p[i + 1..]|..];
    p[i + 1..]
  }

  /** For a relative name, `dir / name` is the directory, a '/', then the name. */
  lemma ChildParts(dir: Path, name: string)
    requires Relative(name)
    ensures StartsWith(Child(dir, name), dir + "/")
    ensures Child(dir, name)[|dir| + 1..] == name
  {
    assert Child(dir, name)[..|dir + "/"|] == dir + "/";
  }

  /** The name of `dir / name` is `name` for a single non-empty component, whatever the directory. */
  lemma NameOfChild(dir: Path, name: string)
    requires '/' !in name && name != []
    ensures Name(Child(dir, name)) == name
  {
    var p := Child(dir, name);
    assert p[|dir|] == '/';
    assert p[|dir| + 1..] == name;
  }
}

=== FILE: script_installer.dfy ===
/** Processing of one script file (dependencies, shebang, permissions,
    symlink) and removal of an installation. File contents, permission bits
    and the results of external commands are values; the commands themselves
    are listed, not run. */
module ScriptInstaller {
  import opened Wrappers
  import opened Text
  import opened Paths
  import opened ScriptState

  /** The first line every installed script gets. */
  const UvShebang: string := "#!/usr/bin/env -S uv run --script\n"

  /** The execute bits for user, group and other (octal 111). */
  const ExecuteBits: bv32 := 0x49

  datatype InstallError =
    | InvalidScript(path: Path)
    | DependenciesFailed(stderr: string)
    | EmptyScript
    | ShebangFailed(reason: string)
    | ChmodFailed(reason: string)
    | SymlinkFailed(reason: string)
    | NotInState(name: string)
    | RemovalFailed(reason: string)

  /** `modify_shebang` on the file's lines: an existing `#!` line is
      replaced, otherwise the uv line is put in front. */
  function ModifyShebang(lines: seq<string>): (r: Result<seq<string>, InstallError>)
    ensures r.Failure? <==> lines == []
    ensures r.Failure? ==> r.error == EmptyScript
    ensures r.Success? ==> |r.value| >= 1 && r.value[0] == UvShebang
    ensures r.Success? && StartsWith(lines[0], "#!") ==>
      |r.value| == |lines| && r.value[1..] == lines[1..]
    ensures r.Success? && !StartsWith(lines[0], "#!") ==>
      |r.value| == |lines| + 1 && r.value[1..] == lines
  {
    if lines == [] then Failure(EmptyScript)
    else if StartsWith(lines[0], "#!") then Success([UvShebang] + lines[1..])
    else Success([UvShebang] + lines)
  }

  /** Rewriting an already rewritten script changes nothing. */
  lemma ModifyShebangIdempotent(lines: seq<string>)
    requires lines != []
    ensures ModifyShebang(ModifyShebang(lines).value) == ModifyShebang(lines)
  {
    var once := ModifyShebang(lines).value;
    assert StartsWith(once[0], "#!");
    assert [UvShebang] + once[1..] == once;
  }

  /** `make_executable`: the execute bits are set and every other bit kept. */
  function MakeExecutable(mode: bv32): (r: bv32)
    ensures r & ExecuteBits == ExecuteBits
    ensures r & !ExecuteBits == mode & !ExecuteBits
  {
    mode | ExecuteBits
  }

  /** A mode that already has the execute bits is left as it is. */
  lemma MakeExecutableIdempotent(mode: bv32)
    ensures MakeExecutable(MakeExecutable(mode)) == MakeExecutable(mode)
    ensures mode & ExecuteBits == ExecuteBits ==> MakeExecutable(mode) == mode
  {
  }

  /** `process_script_dependencies`: no command for no dependencies,
      otherwise `uv add --script <path>` followed by the dependencies. */
  function DependencyCommand(scriptPath: Path, dependencies: seq<string>): (cmd: Option<seq<string>>)
    ensures cmd.None? <==> dependencies == []
    ensures cmd.Some? ==>
      |cmd.value| == 4 + |dependencies|
      && cmd.value[..4] == ["uv", "add", "--script", scriptPath]
      && cmd.value[4..] == dependencies
  {
    if dependencies == [] then None
    else Some(["uv", "add", "--script", scriptPath] + dependencies)
  }

  /** The path `create_symlink` links to: `target_dir / name`, the name
      defaulting to the script's own file name. A relative name puts the
      link inside the target directory, an absolute one is used as it is. */
  function SymlinkPath(scriptPath: Path, targetDir: Path, name: Option<string>): (link: Path)
    ensures name.None? && Name(scriptPath) != [] ==>
      && Name(link) == Name(scriptPath)
      && StartsWith(link, targetDir + "/")
      && '/' !in link[|targetDir| + 1..]
    ensures name.Some? && Relative(name.value) ==>
      StartsWith(link, targetDir + "/") && link[|targetDir| + 1..] == name.value
    ensures name.Some? && name.value != [] && '/' !in name.value ==> Name(link) == name.value
    ensures name.Some? && name.value != [] && name.value[0] == '/' ==> link == name.value
    ensures name == Some([]) || (name.None? && Name(scriptPath) == []) ==> link == targetDir
  {
    var n := name.GetOr(Name(scriptPath));
    assert Relative(n) ==> StartsWith(Child(targetDir, n), targetDir + "/") && Child(targetDir, n)[|targetDir| + 1..] == n by {
      if Relative(n) {
        ChildParts(targetDir, n);
      }
    }
    assert '/' !in n && n != [] ==> Name(Child(targetDir, n)) == n by {
      if '/' !in n && n != [] {
        NameOfChild(targetDir, n);
      }
    }
    Child(targetDir, n)
  }

  /** The arguments of one `install_script` call. */
  datatype InstallRequest = InstallRequest(
    scriptPath: Path,
    dependencies: seq<string>,
    installDir: Path,
    autoChmod: bool,
    autoSymlink: bool,
    verifyAfterInstall: bool)

  /** The script file: its lines and its permission bits. */
  datatype ScriptFile = ScriptFile(lines: seq<string>, mode: bv32)

  /** What the file system and the external commands report: whether the
      file is a Python script, the error output of `uv add` if it failed and
      the file's lines after it succeeded, the error raised by reading or by
      writing the file in the shebang step, by the mode change and by the
      link creation, and whether `<script> --help` succeeded. */
  datatype ToolOutcomes = ToolOutcomes(
    isPythonScript: bool,
    uvAddError: Option<string>,
    linesAfterUvAdd: seq<string>,
    readError: Option<string>,
    writeError: Option<string>,
    chmodError: Option<string>,
    symlinkError: Option<string>,
    helpSucceeded: bool)

  /** The processed file, the symlink created (if any), and the external
      commands issued, in order. */
  datatype Installed = Installed(file: ScriptFile, symlink: Option<Path>, commands: seq<seq<string>>)

  /** The lines the shebang step reads: `uv add` rewrites the file when
      there are dependencies. */
  function LinesToRewrite(req: InstallRequest, file: ScriptFile, tools: ToolOutcomes): seq<string> {
    if req.dependencies != [] then tools.linesAfterUvAdd else file.lines
  }

  /** The validation and the dependency step both passed. */
  predicate DependenciesReady(req: InstallRequest, tools: ToolOutcomes) {
    tools.isPythonScript && (req.dependencies == [] || tools.uvAddError.None?)
  }

  /** The shebang step, reading then writing the file, passed. */
  predicate ShebangWritten(req: InstallRequest, file: ScriptFile, tools: ToolOutcomes) {
    tools.readError.None? && LinesToRewrite(req, file, tools) != [] && tools.writeError.None?
  }

  /** `install_script`: validate, add dependencies, rewrite the shebang,
      make executable and link as the flags say, then verify without ever
      failing on the verification. Each step's error ends the installation
      with that step's error. */
  function InstallScript(req: InstallRequest, file: ScriptFile, tools: ToolOutcomes): (r: Result<Installed, InstallError>)
    ensures !tools.isPythonScript ==> r == Failure(InvalidScript(req.scriptPath))
    ensures tools.isPythonScript && req.dependencies != [] && tools.uvAddError.Some? ==>
      r == Failure(DependenciesFailed(tools.uvAddError.value))
    ensures DependenciesReady(req, tools) && tools.readError.Some? ==>
      r == Failure(ShebangFailed(tools.readError.value))
    ensures DependenciesReady(req, tools) && tools.readError.None? && LinesToRewrite(req, file, tools) == [] ==>
      r == Failure(EmptyScript)
    ensures DependenciesReady(req, tools) && tools.readError.None? && LinesToRewrite(req, file, tools) != []
            && tools.writeError.Some? ==>
      r == Failure(ShebangFailed(tools.writeError.value))
    ensures DependenciesReady(req, tools) && ShebangWritten(req, file, tools) && req.autoChmod && tools.chmodError.Some? ==>
      r == Failure(ChmodFailed(tools.chmodError.value))
    ensures DependenciesReady(req, tools) && ShebangWritten(req, file, tools) && (!req.autoChmod || tools.chmodError.None?)
            && req.autoSymlink && tools.symlinkError.Some? ==>
      r == Failure(SymlinkFailed(tools.symlinkError.value))
    ensures r.Success? <==>
      DependenciesReady(req, tools) && ShebangWritten(req, file, tools)
      && (!req.autoChmod || tools.chmodError.None?) && (!req.autoSymlink || tools.symlinkError.None?)
    ensures r.Success? ==>
      r.value.symlink == if req.autoSymlink then Some(SymlinkPath(req.scriptPath, req.installDir, None)) else None
    ensures r.Success? ==> ModifyShebang(LinesToRewrite(req, file, tools)) == Success(r.value.file.lines)
    ensures r.Success? ==>
      r.value.file.mode == if req.autoChmod then MakeExecutable(file.mode) else file.mode
    ensures r.Success? ==>
      var expected := (if req.dependencies != [] then 1 else 0) + (if req.verifyAfterInstall then 1 else 0);
      |r.value.commands| == expected
      && (req.dependencies != [] ==> r.value.commands[0] == DependencyCommand(req.scriptPath, req.dependencies).value)
      && (req.verifyAfterInstall ==> r.value.commands[expected - 1] == [req.scriptPath, "--help"])
  {
    if !tools.isPythonScript then Failure(InvalidScript(req.scriptPath))
    else if req.dependencies != [] && tools.uvAddError.Some? then Failure(DependenciesFailed(tools.uvAddError.value))
    else if tools.readError.Some? then Failure(ShebangFailed(tools.readError.value))
    else
      match ModifyShebang(LinesToRewrite(req, file, tools))
      case Failure(e) => Failure(e)
      case Success(lines) =>
        if tools.writeError.Some? then Failure(ShebangFailed(tools.writeError.value))
        else if req.autoChmod && tools.chmodError.Some? then Failure(ChmodFailed(tools.chmodError.value))
        else if req.autoSymlink && tools.symlinkError.Some? then Failure(SymlinkFailed(tools.symlinkError.value))
        else
          var mode := if req.autoChmod then MakeExecutable(file.mode) else file.mode;
          var link := if req.autoSymlink then Some(SymlinkPath(req.scriptPath, req.installDir, None)) else None;
          var addDeps := match DependencyCommand(req.scriptPath, req.dependencies)
                         case Some(cmd) => [cmd]
                         case None => [];
          var verify := if req.verifyAfterInstall then [[req.scriptPath, "--help"]] else [];
          Success(Installed(ScriptFile(lines, mode), link, addDeps + verify))
  }

  /** A failed `--help` run never changes the outcome of an installation. */
  lemma VerificationNeverFails(req: InstallRequest, file: ScriptFile, tools: ToolOutcomes, passed: bool)
    ensures InstallScript(req, file, tools.(helpSucceeded := passed)) == InstallScript(req, file, tools)
  {
  }

  /** The link of an installed script carries the script's file name. */
  lemma InstalledLinkKeepsScriptName(req: InstallRequest, file: ScriptFile, tools: ToolOutcomes)
    requires DependenciesReady(req, tools) && ShebangWritten(req, file, tools)
    requires (!req.autoChmod || tools.chmodError.None?) && tools.symlinkError.None?
    requires req.autoSymlink
    ensures var link := InstallScript(req, file, tools).value.symlink;
      link.Some? && (Name(req.scriptPath) != [] ==> Name(link.value) == Name(req.scriptPath))
  {
  }

  /** What a successful removal did: the records without the script, the
      symlink removed (if one was recorded) and the clone directory removed (if any). */
  datatype Removal = Removal(records: Records, unlinked: Option<Path>, deletedRepo: Option<Path>)

  /** `remove_script_installation`. `fsError` is the error of the symlink or
      directory removal, if one raised. The clone directory is deleted only
      on request and only when no other record shares it. */
  function RemoveScriptInstallation(records: Records, name: string, cleanRepo: bool, fsError: Option<string>): (r: Result<Removal, InstallError>)
    ensures name !in records ==> r == Failure(NotInState(name))
    ensures name in records && fsError.Some? ==> r == Failure(RemovalFailed(fsError.value))
    ensures r.Success? <==> name in records && fsError.None?
    ensures r.Success? ==> r.value.records == RemoveScript(records, name)
    ensures r.Success? ==> r.value.unlinked == records[name].symlinkPath
    ensures r.Success? ==>
      var repo := records[name].repoPath;
      (r.value.deletedRepo.Some? <==>
         cleanRepo && forall n :: n in records && n != name ==> records[n].repoPath != repo)
      && (r.value.deletedRepo.Some? ==> r.value.deletedRepo.value == repo)
  {
    if name !in records then Failure(NotInState(name))
    else if fsError.Some? then Failure(RemovalFailed(fsError.value))
    else
      var info := records[name];
      var sharing := ScriptsFromRepo(records, info.repoPath);
      var deleted := if cleanRepo && |sharing| == 1 then Some(info.repoPath) else None;
      Success(Removal(RemoveScript(records, name), info.symlinkPath, deleted))
  }
}

=== FILE: script_state.dfy ===
/** The installed-script records. The store itself is defined in a module
    that is not part of this model; the program uses it as a map from script
    name to record with insert-or-replace, delete and a by-repository query,
    which is what is defined here. */
module ScriptState {
  import opened Wrappers
  import opened Paths

  /** One installed script. `installedAt` is an opaque timestamp. */
  datatype ScriptInfo = ScriptInfo(
    name: string,
    sourceUrl: string,
    ref: string,
    installedAt: int,
    repoPath: Path,
    symlinkPath: Option<Path>,
    dependencies: seq<string>,
    commitHash: string)

  type Records = map<string, ScriptInfo>

  /** Every record is stored under its own name. */
  predicate WellKeyed(records: Records) {
    forall n :: n in records ==> records[n].name == n
  }

  /** `add_script`: insert or replace the record under its name. */
  function AddScript(records: Records, info: ScriptInfo): (r: Records)
    ensures r.Keys == records.Keys + {info.name}
    ensures r[info.name] == info
    ensures forall n :: n in records && n != info.name ==> r[n] == records[n]
    ensures WellKeyed(records) ==> WellKeyed(r)
  {
    records[info.name := info]
  }

  /** `remove_script` */
  function RemoveScript(records: Records, name: string): (r: Records)
    ensures r.Keys == records.Keys - {name}
    ensures forall n :: n in r ==> r[n] == records[n]
    ensures WellKeyed(records) ==> WellKeyed(r)
  {
    records - {name}
  }

  /** A one-element set containing `x` is `{x}`. */
  lemma SingletonOf(s: set<string>, x: string)
    requires x in s
    ensures |s| == 1 <==> s == {x}
  {
    if |s| == 1 {
      var rest := s - {x};
      assert |rest| == 0;
      assert rest == {};
    }
  }

  /** `get_scripts_from_repo`: the names of the records sharing a clone
      directory. A record using `repo` is its only user exactly when the
      answer has one element, which is how removal decides whether the
      clone may go. */
  function ScriptsFromRepo(records: Records, repo: Path): (names: set<string>)
    ensures forall n :: n in names <==> n in records && records[n].repoPath == repo
    ensures forall name :: name in records && records[name].repoPath == repo ==>
      (|names| == 1 <==> forall n :: n in records && n != name ==> records[n].repoPath != repo)
  {
    var names := set n | n in records && records[n].repoPath == repo;
    assert forall name :: name in names ==> (|names| == 1 <==> names == {name}) by {
      forall name | name in names
        ensures |names| == 1 <==> names == {name}
      {
        SingletonOf(names, name);
      }
    }
    names
  }
}

=== FILE: text.dfy ===
/** String helpers with the meaning of the Python string methods the program uses. */
module Text {

  /** `s.startswith(prefix)` */
  predicate StartsWith(s: string, prefix: string) {
    |prefix| <= |s| && s[..|prefix|] == prefix
  }

  /** `s.endswith(suffix)` */
  predicate EndsWith(s: string, suffix: string) {
    |suffix| <= |s| && s[|s| - |suffix|..] == suffix
  }

  /** `s.rfind(c)`: the index of the last occurrence of `c`, or -1. */
  function LastIndexOf(s: string, c: char): (i: int)
    ensures -1 <= i < |s|
    ensures 0 <= i ==> s[i] == c && c !in s[i + 1..]
    ensures i == -1 <==> c !in s
  {
    if |s| == 0 then -1
    else if s[|s| - 1] == c then |s| - 1
    else
      var i := LastIndexOf(s[..|s| - 1], c);
      assert s[..|s| - 1] + [s[|s| - 1]] == s;
      i
  }

  /** `s.split(sep)` for a one-character separator: the pieces between
      separators, empty pieces included, so there is always at least one. */
  function Split(s: string, sep: char): (parts: seq<string>)
    ensures |parts| >= 1
    ensures forall i :: 0 <= i < |parts| ==> sep !in parts[i]
  {
    if |s| == 0 then [""]
    else
      var rest := Split(s[1..], sep);
      if s[0] == sep then [""] + rest
      else [[s[0]] + rest[0]] + rest[1..]
  }

  /** A string without the separator is a single piece. */
  lemma {:induction false} SplitWithoutSeparator(s: string, sep: char)
    requires sep !in s
    ensures Split(s, sep) == [s]
  {
    if |s| > 0 {
      SplitWithoutSeparator(s[1..], sep);
      assert [s[0]] + s[1..] == s;
    }
  }

  /** Splitting at a separator splits the two sides independently. */
  lemma {:induction false} SplitAround(x: string, sep: char, y: string)
    ensures Split(x + [sep] + y, sep) == Split(x, sep) + Split(y, sep)
  {
    if |x| == 0 {
      assert x + [sep] + y == [sep] + y;
      assert ([sep] + y)[1..] == y;
    } else {
      assert (x + [sep] + y)[1..] == x[1..] + [sep] + y;
      SplitAround(x[1..], sep, y);
    }
  }
}

=== FILE: wrappers.dfy ===
/** Optional values and results used where the Python code returns `None` or raises. */
module Wrappers {

  /** A value that may be absent (Python's `X | None`). */
  datatype Option<+T> = None | Some(value: T) {

    /** The carried value, or `default` when absent. */
    function GetOr(default: T): T {
      match this
      case Some(v) => v
      case None => default
    }
  }

  /** Either a value or the error that was raised instead. */
  datatype Result<+T, +E> = Success(value: T) | Failure(error: E)
}
